=== FILE: README.md ===
# Host side of a progressive GPU path tracer, modelled in Dafny

The original program is a real-time path tracer written in Rust on `wgpu` and
`winit`. The ray tracing itself runs in a compute shader. The host side, which
this project models, does four things:

- It keeps the state the shader reads: the camera uniform, the frame counters,
  the scene's material, vertex and triangle lists, and the two accumulation
  buffers that are swapped every frame ("ping-pong").
- It turns window and device events into key, button and scroll state. Once
  per fixed logic step it turns that state into a list of actions.
- It dispatches the actions: camera movement, zoom, fly speed, fullscreen,
  loading the test mesh and quitting.
- It rebuilds the resolution-dependent resources when the window is resized.
  It records one compute pass and one full-screen draw per redraw.

Each module follows one source file:

| module | follows |
|---|---|
| `Common` | `u32` arithmetic that panics on overflow, sizes, results, real vectors, and the maths functions the model leaves uninterpreted |
| `Gpu` | the device as an allocator of fresh handles |
| `Config` | `StateConfigs` |
| `Timing` | `get_ticks`: the quarter-second clamp, the accumulator and the tick count |
| `FrameCounters` | the frame uniform, its update on each poll, the ping-pong choice, the workgroup count |
| `Cameras` | `PhysicalCamera`, `Camera` and `build_uniform` |
| `Mesh` | `parse_obj`, on a list of lines and with a float parser as a parameter |
| `Scenes` | `Material` and `Scene` |
| `TextureSet` | `Textures` |
| `BindGroups` | the five layouts and six groups, and their rebuilds |
| `Input` | `InputHandler`: key and button edges, scroll flags, mouse look, bindings, `get_actions` |
| `Engine` | `State`: `resize`, `rebuild_texture_and_bind_groups`, `render`, `process_event`, `quit` |
| `Dispatcher` | `ActionDispatcher::dispatch` |
| `EventLoop` | the closure given to the event loop in `run`: input first, then on a poll the frame counters and the logic ticks, then the event itself |

Modelling conventions:

- Every panic of the original is an `Err` of `Common.Result`, and a panic has
  no successor state. This covers `u32` overflow as a debug build reports it,
  `expect` on a missing frame buffer, and `unwrap` in the OBJ importer.
- `f32` values are reals.
- Cosine, sine, `normalize` and `2 / tan(fov / 2)` are fields of a `Trig`
  record, so every other step is exact.
- Creating a GPU object hands out a handle above every handle handed out
  before. "Fresh" means exactly that.
- The iteration order of the key hash sets is an input (`Input.KeyOrder`): a
  function that lists any set of keys once each. The property about the
  actions of a frame holds for every such order.

The central invariant is `Engine.Coherent`:

- the window size is non-empty;
- the surface configuration and the camera sensor agree with the size;
- the camera's uniform mirrors its physical state;
- the bind groups conform to their layouts and are wired to the current
  textures and frame buffer;
- the logic step is `Engine.Timestep`, and the time accumulator holds less
  than one step.

Every operation that can change the state keeps `Coherent`. That includes
resize, window events, each arm of dispatch, a logic tick, any number of
ticks, a poll, and one pass of the event-loop closure.

## Model

| member | source | states |
|---|---|---|
| Common.MulU32 | src/app/texture.rs:17 | The pixel count is the exact product whenever it fits in `u32`. Exactly when it does not, the program panics. |
| Timing.ClampFrame | src/lib.rs:354 | The frame time counted is never more than a quarter second and never more than the time that passed. It is one of the two. |
| Timing.AdvanceClock | src/lib.rs:354-360 | No time is lost or invented: ticks times step plus the new remainder equals the old remainder plus the clamped frame time. The remainder stays below one step. |
| Timing.AdvanceIsDivision | src/lib.rs:354-360 | One clock step drains exactly the floor quotient of the banked time by the step and leaves the remainder of that division. |
| Timing.GetTicks | src/lib.rs:348-369 | The loop's tick count is the quotient of the remainder plus the clamped frame time by the step. The time left over is the remainder of that division. The count fits in `u32`. |
| Timing.TicksFitU32 | src/lib.rs:349-360 | The tick counter cannot overflow. Once the accumulator holds less than one step, a frame can never yield `2^32` ticks. |
| Timing.StallIsBounded | src/lib.rs:354 | A stall of any length past a quarter second gives the same ticks and remainder as a quarter-second frame. A long pause does not make the simulation race. |
| FrameCounters.AdvanceFrame | src/lib.rs:432-450 | The frame index counts up by one. Frames-since-moved restarts at 0 after a moved frame and counts up otherwise. The two spare slots are kept. It panics exactly when a counter would leave `u32`. |
| FrameCounters.FramesSinceMovedCountsStillRun | src/lib.rs:438-449 | After any run of polls, stated without the step function: the frame index grew by the number of polls. Frames-since-moved is the length of the trailing still run, or the old value plus the run when the camera never moved. |
| FrameCounters.PingPongAlternates | src/lib.rs:277-288 | The accumulation pairing repeats every two frames. Consecutive frames use opposite pairings. |
| FrameCounters.WorkgroupCount | src/lib.rs:290-294 | The count is the least number of 8-pixel tiles that covers the extent. It panics exactly when `extent + 7` leaves `u32`. |
| Cameras.InitialBasisIsDerived | src/app/camera.rs:69-76 | The start basis written out literally is what `get_axes` derives from the start yaw of 90 and pitch of 0. |
| Cameras.ClampPitch | src/app/camera.rs:111 | Pitch ends up in [-89.99, 89.99]. It is unchanged inside that range and set to the nearer bound outside it. |
| Cameras.BuildUniform | src/app/camera.rs:132-156 | The uniform carries the position and zero padding. Width-many horizontal pixel steps span the viewport width along `right`. Height-many vertical steps span the viewport height against `up`. |
| Cameras.PixelGridCentre | src/app/camera.rs:141-143 | The viewport centre `position + forward` lies on the pixel grid at horizontal index `(W - 1) / 2`, the exact middle. The vertical index is `(H + 1) / 2`, one step past the middle, because the half-pixel offset subtracts the vertical step. |
| Cameras.New | src/app/camera.rs:69-101 | The camera starts at the origin with the fixed start basis, yaw 90 and pitch 0. Its aspect is width over height and its viewport height is the one for `fov`. Its buffer is fresh and its uniform is in sync. |
| Cameras.SetPosition | src/app/camera.rs:103-107 | Only the position changes. The uniform is in sync again and the buffer is the same. |
| Cameras.SetRotation | src/app/camera.rs:109-115 | Yaw is stored as given. Pitch is stored as given inside the limits and as the nearer limit outside them. The basis is the one `get_axes` derives for them. Position, aspect, viewport and sensor are untouched, and the uniform is in sync. |
| Cameras.SetFov | src/app/camera.rs:117-122 | Only the viewport height changes, to the one for the new field of view. The uniform is in sync. |
| Cameras.Resize | src/app/camera.rs:42-45 | The sensor takes the new resolution. The aspect times the height is the width. Nothing else about the camera changes. |
| Mesh.BeforeSlash | src/app/mesh.rs:28 | The result is a slash-free prefix of the token that ends where the token's first `/` is, and is the whole token when there is none. |
| Mesh.ParseIndex | src/app/mesh.rs:28 | A face token yields its vertex number minus one. It panics exactly when the part before `/` is not a `u32` (a bad index) or is 0 (an underflow). |
| Mesh.FirstBadTokenPanics | src/app/mesh.rs:26-29 | When some tokens of a face line are bad, the line panics with the reason of the first bad one. |
| Mesh.ParseIndices | src/app/mesh.rs:26-29 | The face's index list succeeds exactly when every token does. Position by position it holds what each token yields. |
| Mesh.Fan | src/app/mesh.rs:31-33 | A face of n ≥ 3 indices becomes n - 2 triangles fanned around its first index. Fewer indices give none. |
| Mesh.ParseLine | src/app/mesh.rs:13-36 | Blank lines and unknown keywords add nothing. A `v` line succeeds exactly when it has three coordinates after the keyword and each parses; it then adds the one vertex `[10x, -10y, 10z, 1]`. Otherwise the first missing coordinate panics as missing and the first unparsable one as bad. An `f` line succeeds exactly when it has a token and every token parses; it then adds the fan of its indices. A bad token's reason is the line's panic, and a bare `f` panics as an empty face. |
| Mesh.ParseObj | src/app/mesh.rs:4-40 | Every imported vertex has `w` = 1 and every triangle's spare slot is 0. |
| Mesh.ParseObjAppend | src/app/mesh.rs:11-37 | Importing two files one after the other is importing the first, then the second, with the outputs appended. The first panic wins. |
| Mesh.ParseObjOkIffEveryLine | src/app/mesh.rs:11-37 | A file imports without panicking exactly when every one of its lines does. |
| Mesh.VertexPerVertexLine | src/app/mesh.rs:19-24 | A successful import has exactly one vertex per `v` line. |
| Mesh.SplitJoin | src/app/mesh.rs:13 | Splitting on whitespace recovers the words of a line made by joining them with spaces. |
| Mesh.FaceLineRoundTrip | src/app/mesh.rs:25-34 | Writing indices as a one-based `f` line and importing it gives back exactly the fan of those indices. |
| Mesh.VertexLineRoundTrip | src/app/mesh.rs:19-24 | Importing a `v` line of three float words gives exactly the one scaled, flipped vertex of their values. |
| Scenes.NewMaterial | src/app/scene.rs:16-22 | Albedo, kind, emission, roughness and index of refraction can each be read back from the packed material. The unused slots are zero. |
| Scenes.MaterialRepacks | src/app/scene.rs:16-22 | Repacking the fields read from any packed material gives that material back. |
| Scenes.New | src/app/scene.rs:35-66 | The scene starts with one default material, one zero vertex and one zero triangle. Each list is mirrored in its own fresh buffer. |
| Scenes.UpdateMaterialBuffer | src/app/scene.rs:96-102 | A fresh buffer holds exactly the current materials. Nothing else changes. |
| Scenes.UpdateTriangleBuffers | src/app/scene.rs:82-94 | Two distinct fresh buffers hold exactly the current vertices and triangles. Nothing else changes. |
| Scenes.SetupTestScene | src/app/scene.rs:68-80 | It succeeds exactly when the mesh imports. The scene then holds exactly one material, the test material with the given albedo, no emission, kind 2, roughness 0.5, index of refraction 1.5 and zero padding, the imported vertices and triangles, and in-sync fresh buffers. |
| TextureSet.New | src/app/texture.rs:11-56 | The texture is width by height by 1. The two buffers each hold one zero `vec4` per pixel. All three handles are fresh and distinct. It panics exactly when the pixel count leaves `u32`. |
| BindGroups.New | src/app/bind_groups.rs:16-247 | Every group conforms to its layout and binds the resources it was given. The ping-pong groups pair the two buffers both ways round. It panics exactly when the frame buffer is absent. |
| BindGroups.RebuildFragment | src/app/bind_groups.rs:249-269 | Only the fragment group is replaced, by a fresh group on the old layout that samples the new view. Well-formedness is kept. |
| BindGroups.RebuildCompute | src/app/bind_groups.rs:271-295 | Only the compute group is replaced. It panics exactly when the frame buffer is absent. Well-formedness is kept. |
| BindGroups.RebuildTextureBuffers | src/app/bind_groups.rs:297-333 | Only the two ping-pong groups are replaced, by distinct fresh groups pairing the new buffers both ways round. Well-formedness is kept. |
| BindGroups.RebuildScene | src/app/bind_groups.rs:335-354 | Only the scene group is replaced, by a fresh group binding the given buffers. Well-formedness is kept. |
| Input.Press | src/input/handler.rs:91-103 | A press adds to held and counts as just pressed only if the key was not already held. A release removes from held and counts as just released. |
| Input.HeldFollowsLastEvent | src/input/handler.rs:91-103 | After any sequence of events, a key is held exactly when its latest event was a press, or it had no event and was held before. |
| Input.JustReleasedCollects | src/input/handler.rs:98-101 | A key is just released exactly when it was before or some event in the sequence released it. |
| Input.MouseMove | src/input/handler.rs:276-281 | Yaw grows by the horizontal motion times 0.1. Pitch takes the vertical motion times -0.1, clamped to the pitch limits. Position is unchanged and the camera is marked moved. |
| Input.LookStaysLevel | src/input/handler.rs:276-281 | However far the mouse travels, the pitch stays within the limits. The yaw is the start yaw plus 0.1 times the total horizontal motion. |
| Input.ProcessInput | src/input/handler.rs:174-217 | Non-repeat key reports and button reports update their edge sets. A line scroll sets the up or down flag by its sign. Mouse motion looks around. Every other event changes nothing. |
| Input.RepeatIsIgnored | src/input/handler.rs:182-193 | A key report marked as a repeat changes neither the handler nor the camera. |
| Input.EmitIsGroup | src/input/handler.rs:225-239 | For any listing of a key set, the emitted actions hold one action per bound key. Each action occurs as often as there are keys bound to it in that slot. |
| Input.ZoomTail | src/input/handler.rs:241-246 | One `ZoomIn` is appended exactly when zoomed and scrolled up, and one `ZoomOut` exactly when zoomed and scrolled down, in that order, and nothing else. |
| Input.EndFrame | src/input/handler.rs:253-263 | All key and button edges and both scroll flags are cleared. Held keys, held buttons, bindings, the zoomed flag and the moved flag are kept. |
| Input.GetActions | src/input/handler.rs:223-251 | The actions are the press group, then the held group, then the release group, then the zoom tail of at most one `ZoomIn` followed by at most one `ZoomOut`. Each group holds exactly the bound keys' actions, whatever the hash-set order. The handler ends the frame. |
| Input.RebindKey | src/input/handler.rs:265-274 | The key gets the three given actions. Every other binding, and everything else in the handler, is unchanged. |
| Input.NewDefaults | src/input/handler.rs:115-173 | There are exactly the eleven default keys with their slot actions, no flags and nothing pressed. |
| Input.DefaultMovementIsHeldOnly | src/input/handler.rs:115-164 | Under the default bindings, movement comes only from a held key. `ExitProgram` comes exactly from Escape going down. |
| Engine.RebuildTextureAndBindGroups | src/lib.rs:325-342 | The textures are sized for the new size and fresh. The compute, fragment and ping-pong groups are wired to them. Everything else is kept. It panics exactly on an oversized pixel count or a missing frame buffer. |
| Engine.Resize | src/lib.rs:239-253 | A size with a zero side changes nothing. Otherwise the size, surface configuration, camera sensor and aspect take the new size. The camera is otherwise unchanged, pose, angles and viewport included, and the resources are rewired. |
| Engine.ResizeKeepsCoherent | src/lib.rs:239-253 | Resizing keeps a running program coherent. |
| Engine.ResizeIsIdempotentUpToHandles | src/lib.rs:240-251 | Resizing a second time to the same size succeeds. It leaves the same size, camera, texture shape and buffer contents, differing only in fresh handles. |
| Engine.Render | src/lib.rs:255-323 | A surface error records nothing and is returned. Otherwise the compute pass binds the compute, camera, scene and this frame's ping-pong group, over the least tile grid covering the surface. One triangle is drawn with the fragment group. |
| Engine.EachFrameReadsThePreviousWrite | src/lib.rs:277-288 | Progressive accumulation: each frame reads the buffer the previous frame wrote and writes the one it read. The two are the two distinct accumulation buffers. |
| Engine.ProcessEvent | src/lib.rs:371-402 | Close exits and resize resizes. A redraw renders. A lost or outdated surface resizes to the current size, and running out of memory or an unknown error exits. A timeout skips the frame, and other events change nothing. |
| Engine.ProcessEventKeepsCoherent | src/lib.rs:371-402 | Window events keep a running program coherent. Only a redraw with an acquired image draws. |
| Engine.Quit | src/lib.rs:344-346 | Quitting raises the quit flag and changes nothing else. The loop acts on it at the next event. |
| Dispatcher.Accumulate | src/input/dispatcher.rs:20-37 | Each movement action adds its signed direction to the sum: forward, right, or the vertical axis with up along `-y`. |
| Dispatcher.Refocus | src/input/dispatcher.rs:44-64 | A zoom arm sets the offset. The camera becomes `set_fov` of the old camera at the given field of view. The input changes only in the zoomed flag, which takes the given value, and the moved flag, which is raised. Nothing else in the state changes, and the program stays coherent. |
| Dispatcher.ToggleFullscreen | src/input/dispatcher.rs:39-43 | The fullscreen mode flips. The result is the state with the flipped mode, resized to the window size reported for that mode, with the camera marked moved. It panics exactly when that resize does. Quit, the configuration and coherence are kept. |
| Dispatcher.LoadTestScene | src/input/dispatcher.rs:68-73 | It succeeds exactly when the test mesh imports. Then the scene and device become what `setup_test_scene` returns and the camera is marked moved. Nothing else changes, and coherence is kept. |
| Dispatcher.Rezoom | src/input/dispatcher.rs:44-64 | The offset stays for `Zoom`, goes to 0 for `UnZoom` and moves one step for a scroll notch. The camera takes the view for the configured field of view scaled by base zoom plus the new offset, or the configured view for `UnZoom`. `Zoom` sets the zoomed flag, `UnZoom` clears it, and scroll notches keep it. The camera is marked moved and nothing else changes. |
| Dispatcher.Effect | src/input/dispatcher.rs:38-74 | Only fullscreen and the test scene can panic. `ExitProgram` only raises the quit flag. `SetFlySpeed` only sets the fly speed and does not mark the camera moved. `NoAction` changes nothing. Other than fullscreen and the test scene, no arm changes anything beyond the camera view, the input flags, quit and the configuration. `Zoom` sets the zoomed flag and `UnZoom` clears it; every other arm keeps it. Only the zoom arms change the offset: by one step per `ZoomIn` or `ZoomOut`, and to 0 for `UnZoom`. No non-movement arm moves or turns the camera. |
| Dispatcher.Apply | src/input/dispatcher.rs:18-75 | A movement action only adds its direction to the sum and leaves the state and dispatcher alone. Any other action acts as `Effect` states: quit only for `ExitProgram`, speed only for `SetFlySpeed`, the zoomed flag only for `Zoom` and `UnZoom`, and nothing for `NoAction`. Pose, configured view and key state stay as they were. |
| Dispatcher.Dispatch | src/input/dispatcher.rs:16-83 | The actions are applied in order. A non-zero summed movement then moves the camera once, by the fly speed along the normalised sum, and marks it moved. Nothing else in the state changes. A zero sum leaves the state as the actions left it. |
| Dispatcher.QuitIffExit | src/input/dispatcher.rs:18-76 | After any list of actions, quit is raised exactly when it already was or the list holds `ExitProgram`. |
| Dispatcher.FlySpeedIsLastSet | src/input/dispatcher.rs:18-76 | After any list of actions, the fly speed is the value of the last `SetFlySpeed`, or the old speed when there is none. |
| Dispatcher.ZoomedIsLastToggle | src/input/dispatcher.rs:18-76 | After any list of actions, the zoomed flag is set if the last `Zoom` or `UnZoom` is `Zoom` and clear if it is `UnZoom`. With neither in the list, the flag is unchanged. |
| Dispatcher.DispatchQuitsOnExit | src/input/dispatcher.rs:16-83 | A dispatch leaves the program quitting exactly when it already was or an `ExitProgram` was among the actions. |
| Dispatcher.ApplyAllKeepsCoherent | src/input/dispatcher.rs:18-76 | Applying any list of actions keeps a running program coherent. |
| Dispatcher.DispatchKeepsCoherent | src/input/dispatcher.rs:16-83 | Dispatching keeps a running program coherent. |
| Dispatcher.MovementIsNetCount | src/input/dispatcher.rs:17-37 | The summed movement depends only on the net count of each movement pair, not on order or on other actions. |
| Dispatcher.BalancedMovesStayPut | src/input/dispatcher.rs:78-82 | When each movement is cancelled by its opposite, the camera stays put. |
| Dispatcher.ForwardMovesBySpeed | src/input/dispatcher.rs:78-82 | A lone `MoveForward` moves the camera by the fly speed along its normalised forward direction and marks it moved. |
| Dispatcher.ZoomCountsSteps | src/input/dispatcher.rs:55-64 | Without `UnZoom`, the zoom offset moves by 0.01 times the net count of `ZoomIn` over `ZoomOut`. |
| Dispatcher.ZoomSetsViewport | src/input/dispatcher.rs:44-64 | After `Zoom`, `ZoomIn` or `ZoomOut`, the viewport is the one for the configured field of view scaled by base zoom plus offset. `UnZoom` restores the configured view and clears offset and flag. |
| Dispatcher.UnZoomRestores | src/input/dispatcher.rs:49-54 | However the zoom wandered within a tick, a final `UnZoom` leaves no offset, no zoom and the configured view. |
| Dispatcher.BoostThenReleaseRestoresDefaults | src/config.rs:10-17 | Under the default configuration, pressing the control key boosts the fly speed. Releasing it puts the default configuration back. |
| EventLoop.Tick | src/lib.rs:456-462 | One logic tick leaves no key edges or scroll flags and the same held keys and bindings. It does not touch the frame counters or the clock. |
| EventLoop.TickForgetsMovedFlag | src/lib.rs:457 | A tick's outcome does not depend on the moved flag it starts with. |
| EventLoop.RunTicks | src/lib.rs:455-462 | Any number of ticks leaves the frame counters and the clock untouched. |
| EventLoop.RunTicksKeepsCoherent | src/lib.rs:455-462 | Any number of ticks keeps a running program coherent. |
| EventLoop.PollTick | src/lib.rs:432-462 | A poll advances the frame counters by the moved flag the previous events left. It keeps the clock remainder below one step. It panics when a counter overflows. |
| EventLoop.PollRunsWholeSteps | src/lib.rs:432-462 | After advancing the counters, a poll runs exactly as many ticks as whole logic steps fit in the banked time plus the clamped elapsed time, and keeps the rest as the remainder. |
| EventLoop.Step | src/lib.rs:421-467 | A raised quit flag makes the pass exit. The clock stays settled. Only a poll advances the frame index, by exactly one, and only a poll can change the dispatcher. |
| EventLoop.StepKeepsCoherent | src/lib.rs:421-467 | Every pass of the closure keeps a running program coherent. |
| EventLoop.HoldingForwardFlies | src/lib.rs:455-462 | Holding only W under the default bindings, unzoomed, a tick moves the camera forward by the fly speed and marks it moved. |

## Left out

- GPU and window side effects are not modelled, because they have no state the host reads back. This covers queue writes (`update_buffer`, `update_frame_buffer`), `surface.configure`, command submission, `present` and `request_redraw`. Cursor grabbing, logging and the FPS counter with its `println` are left out for the same reason.
- `State::new`, `SurfaceState::new`, `GpuContext::new` and `run`'s window setup are not modelled. Adapter and device setup is foreign code. Also, `State::new` calls `setup_test_scene` with an argument it does not take and reads a `sphere_buffer` that `Scene` does not have (`src/lib.rs:205`, `src/lib.rs:213`). The sphere buffer is therefore a plain handle parameter of `BindGroups.New`.
- The `Test` arm's call to `rebuild_scene_bind_group` passes the device and three buffers (material, vertex and triangle) to a function that takes the device and two buffers (sphere and material) (`src/input/dispatcher.rs:71`, `src/app/bind_groups.rs:335-341`), so the call is not modelled. `BindGroups.RebuildScene` models the function itself.
- `src/app/pipelines.rs` and `src/app/mod.rs` are not part of this model. They hold shader pipeline creation and module wiring, which have no host logic.
- Floating point is modelled as real arithmetic. `f32` rounding, NaN and infinity are not modelled.
- Sine, cosine, `tan` and `normalize` are left uninterpreted.
- Float parsing in the OBJ importer is a parameter.
- The timestep is the `f32` nearest 1/120 s, rounded to whole nanoseconds (8 333 334 ns).
- Randomness (`rand` in `setup_test_scene`), file I/O (the OBJ file becomes a list of lines) and the clock (`Instant::now`) are inputs.
- `get_action` is folded into action emission, and `set_axes` into `Cameras.SetRotation`. The unused `Context` enum has no behaviour and is not modelled.
- The `sensitivity` configuration value is kept in `Config` but never read. `mouse_move` hard-codes its own factor 0.1, and the model follows the code.
- Cameras.New: requires a non-empty size. In the original a zero side gives an infinite or NaN aspect; `resize` never passes one, and the initial window size is a platform input.
- Cameras.Resize: requires a non-empty size, which its only caller `State::resize` guarantees.
- Timing.GetTicks: requires the accumulator to hold less than one step and the step to be positive. The accumulator starts at zero and every call leaves a remainder below one step, so the requirement is the loop's invariant, not a restriction. The same holds for `Timing.AdvanceClock`, `Timing.AdvanceIsDivision`, `EventLoop.PollTick`, `EventLoop.PollRunsWholeSteps` and `EventLoop.Step`.
- Input.GetActions: takes the three hash-set iteration orders as inputs (`Input.KeyOrder`). It states the action groups up to order, because the original's order is unspecified.
- Pitch is clamped to the closed interval [-89.99, 89.99], as the code does. An open interval is not what `clamp` produces.
- `u32` overflow is modelled as a panic, as in a debug build. A release build would wrap instead.

=== FILE: bind_groups.dfy ===
/** The resource binding registry (`BindGroups`): five layouts fixed at
    construction and six bind groups, each a record of which resource sits in
    which slot. Every rebuild creates a new group under a fresh handle against
    the layout it already has, and leaves every other field alone. */
module BindGroups {
  import opened Common
  import Gpu

  /** What a layout slot accepts. */
  datatype SlotKind =
    | StorageReadOnly
    | StorageWritable
    | UniformBuffer
    | StorageTextureWriteOnly
    | SampledTexture
    | FilteringSampler

  datatype Layout = Layout(id: Gpu.Handle, slots: seq<SlotKind>)

  /** A resource bound in a slot: a whole buffer, a texture view or a sampler. */
  datatype Resource = BufferRes(buffer: Gpu.Handle) | ViewRes(view: Gpu.Handle) | SamplerRes(sampler: Gpu.Handle)

  datatype BindGroup = BindGroup(id: Gpu.Handle, layout: Gpu.Handle, slots: seq<Resource>)

  datatype Registry = Registry(
    sceneLayout: Layout,
    cameraLayout: Layout,
    computeLayout: Layout,
    fragmentLayout: Layout,
    textureBufferLayout: Layout,
    scene: BindGroup,
    camera: BindGroup,
    compute: BindGroup,
    fragment: BindGroup,
    aReadBWrite: BindGroup,
    bReadAWrite: BindGroup)

  /** The layout entries `BindGroups::new` declares. */
  const SceneSlots: seq<SlotKind> := [StorageReadOnly, StorageReadOnly]
  const CameraSlots: seq<SlotKind> := [UniformBuffer]
  const ComputeSlots: seq<SlotKind> := [StorageTextureWriteOnly, UniformBuffer]
  const TextureBufferSlots: seq<SlotKind> := [StorageReadOnly, StorageWritable]
  const FragmentSlots: seq<SlotKind> := [SampledTexture, FilteringSampler]

  /** A resource is of the sort a slot kind accepts. */
  predicate Fits(r: Resource, k: SlotKind) {
    match k
    case SampledTexture => r.ViewRes?
    case StorageTextureWriteOnly => r.ViewRes?
    case FilteringSampler => r.SamplerRes?
    case _ => r.BufferRes?
  }

  /** A group was created against layout `l` and fills each of its slots. */
  predicate Conforms(g: BindGroup, l: Layout) {
    && g.layout == l.id
    && |g.slots| == |l.slots|
    && forall i :: 0 <= i < |g.slots| ==> Fits(g.slots[i], l.slots[i])
  }

  /** The registry's layouts have their declared entries and every group
      conforms to its own layout. */
  predicate WellFormed(r: Registry) {
    && r.sceneLayout.slots == SceneSlots
    && r.cameraLayout.slots == CameraSlots
    && r.computeLayout.slots == ComputeSlots
    && r.fragmentLayout.slots == FragmentSlots
    && r.textureBufferLayout.slots == TextureBufferSlots
    && Conforms(r.scene, r.sceneLayout)
    && Conforms(r.camera, r.cameraLayout)
    && Conforms(r.compute, r.computeLayout)
    && Conforms(r.fragment, r.fragmentLayout)
    && Conforms(r.aReadBWrite, r.textureBufferLayout)
    && Conforms(r.bReadAWrite, r.textureBufferLayout)
  }

  /** The five layouts of `r'` are those of `r`. */
  predicate SameLayouts(r: Registry, r': Registry) {
    && r'.sceneLayout == r.sceneLayout
    && r'.cameraLayout == r.cameraLayout
    && r'.computeLayout == r.computeLayout
    && r'.fragmentLayout == r.fragmentLayout
    && r'.textureBufferLayout == r.textureBufferLayout
  }

  function CreateLayout(d: Gpu.Device, slots: seq<SlotKind>): (r: (Layout, Gpu.Device))
    ensures r.0.slots == slots && Gpu.FreshFor(r.0.id, d) && r.1.next == r.0.id + 1
  {
    var (h, d') := Gpu.Allocate(d);
    (Layout(h, slots), d')
  }

  function CreateGroup(d: Gpu.Device, l: Layout, slots: seq<Resource>): (r: (BindGroup, Gpu.Device))
    ensures r.0.layout == l.id && r.0.slots == slots
    ensures Gpu.FreshFor(r.0.id, d) && r.1.next == r.0.id + 1
  {
    var (h, d') := Gpu.Allocate(d);
    (BindGroup(h, l.id, slots), d')
  }

  /** The slot assignments of each group. */
  function SceneEntries(sphereBuffer: Gpu.Handle, materialBuffer: Gpu.Handle): seq<Resource> {
    [BufferRes(sphereBuffer), BufferRes(materialBuffer)]
  }

  function ComputeEntries(view: Gpu.Handle, frameBuffer: Gpu.Handle): seq<Resource> {
    [ViewRes(view), BufferRes(frameBuffer)]
  }

  function FragmentEntries(view: Gpu.Handle, sampler: Gpu.Handle): seq<Resource> {
    [ViewRes(view), SamplerRes(sampler)]
  }

  /** Ping-pong pairings: slot 0 is read, slot 1 is written. */
  function PairEntries(read: Gpu.Handle, write: Gpu.Handle): seq<Resource> {
    [BufferRes(read), BufferRes(write)]
  }

  /** `BindGroups::new`. The compute group needs the frame buffer, and an
      absent one panics (`expect`). */
  function New(
    d: Gpu.Device, sampler: Gpu.Handle, sphereBuffer: Gpu.Handle, materialBuffer: Gpu.Handle,
    cameraBuffer: Gpu.Handle, frameBuffer: Option<Gpu.Handle>,
    bufferA: Gpu.Handle, bufferB: Gpu.Handle, view: Gpu.Handle): (r: Result<(Registry, Gpu.Device)>)
    ensures r.Ok? <==> frameBuffer.Some?
    ensures r.Ok? ==> var g := r.value.0;
      && WellFormed(g)
      && g.scene.slots == SceneEntries(sphereBuffer, materialBuffer)
      && g.camera.slots == [BufferRes(cameraBuffer)]
      && g.compute.slots == ComputeEntries(view, frameBuffer.value)
      && g.fragment.slots == FragmentEntries(view, sampler)
      && g.aReadBWrite.slots == PairEntries(bufferA, bufferB)
      && g.bReadAWrite.slots == PairEntries(bufferB, bufferA)
    ensures r.Ok? ==> d.next <= r.value.1.next
  {
    var (sceneLayout, d1) := CreateLayout(d, SceneSlots);
    var (scene, d2) := CreateGroup(d1, sceneLayout, SceneEntries(sphereBuffer, materialBuffer));
    var (cameraLayout, d3) := CreateLayout(d2, CameraSlots);
    var (camera, d4) := CreateGroup(d3, cameraLayout, [BufferRes(cameraBuffer)]);
    if frameBuffer.None? then Err(MissingFrameBuffer)
    else
      var (computeLayout, d5) := CreateLayout(d4, ComputeSlots);
      var (compute, d6) := CreateGroup(d5, computeLayout, ComputeEntries(view, frameBuffer.value));
      var (textureBufferLayout, d7) := CreateLayout(d6, TextureBufferSlots);
      var (aToB, d8) := CreateGroup(d7, textureBufferLayout, PairEntries(bufferA, bufferB));
      var (bToA, d9) := CreateGroup(d8, textureBufferLayout, PairEntries(bufferB, bufferA));
      var (fragmentLayout, d10) := CreateLayout(d9, FragmentSlots);
      var (fragment, d11) := CreateGroup(d10, fragmentLayout, FragmentEntries(view, sampler));
      Ok((Registry(sceneLayout, cameraLayout, computeLayout, fragmentLayout, textureBufferLayout,
        scene, camera, compute, fragment, aToB, bToA), d11))
  }

  /** `rebuild_fragment_bind_group`: only the fragment group is replaced, by a
      fresh group on the existing layout sampling `view` through `sampler`. */
  function RebuildFragment(r: Registry, d: Gpu.Device, sampler: Gpu.Handle, view: Gpu.Handle): (r': (Registry, Gpu.Device))
    ensures r'.0 == r.(fragment := r'.0.fragment)
    ensures r'.0.fragment.layout == r.fragmentLayout.id
    ensures r'.0.fragment.slots == FragmentEntries(view, sampler)
    ensures Gpu.FreshFor(r'.0.fragment.id, d) && r'.0.fragment.id < r'.1.next
    ensures WellFormed(r) ==> WellFormed(r'.0)
  {
    var (g, d') := CreateGroup(d, r.fragmentLayout, FragmentEntries(view, sampler));
    (r.(fragment := g), d')
  }

  /** `rebuild_compute_bind_group`: only the compute group is replaced; an
      absent frame buffer panics. */
  function RebuildCompute(r: Registry, d: Gpu.Device, frameBuffer: Option<Gpu.Handle>, view: Gpu.Handle)
    : (r': Result<(Registry, Gpu.Device)>)
    ensures r'.Ok? <==> frameBuffer.Some?
    ensures r'.Ok? ==> var g := r'.value.0;
      && g == r.(compute := g.compute)
      && g.compute.layout == r.computeLayout.id
      && g.compute.slots == ComputeEntries(view, frameBuffer.value)
      && Gpu.FreshFor(g.compute.id, d) && g.compute.id < r'.value.1.next
      && (WellFormed(r) ==> WellFormed(g))
  {
    if frameBuffer.None? then Err(MissingFrameBuffer)
    else
      var (g, d') := CreateGroup(d, r.computeLayout, ComputeEntries(view, frameBuffer.value));
      Ok((r.(compute := g), d'))
  }

  /** `rebuild_texture_buffer_bind_groups`: both ping-pong groups are replaced
      with the roles `new` gives them (A read / B written, and the reverse);
      nothing else changes. */
  function RebuildTextureBuffers(r: Registry, d: Gpu.Device, bufferA: Gpu.Handle, bufferB: Gpu.Handle)
    : (r': (Registry, Gpu.Device))
    ensures r'.0 == r.(aReadBWrite := r'.0.aReadBWrite, bReadAWrite := r'.0.bReadAWrite)
    ensures r'.0.aReadBWrite.slots == PairEntries(bufferA, bufferB)
    ensures r'.0.bReadAWrite.slots == PairEntries(bufferB, bufferA)
    ensures r'.0.aReadBWrite.layout == r.textureBufferLayout.id && r'.0.bReadAWrite.layout == r.textureBufferLayout.id
    ensures Gpu.FreshFor(r'.0.aReadBWrite.id, d) && Gpu.FreshFor(r'.0.bReadAWrite.id, d)
    ensures r'.0.aReadBWrite.id != r'.0.bReadAWrite.id
    ensures r'.0.aReadBWrite.id < r'.1.next && r'.0.bReadAWrite.id < r'.1.next
    ensures WellFormed(r) ==> WellFormed(r'.0)
  {
    var (aToB, d1) := CreateGroup(d, r.textureBufferLayout, PairEntries(bufferA, bufferB));
    var (bToA, d2) := CreateGroup(d1, r.textureBufferLayout, PairEntries(bufferB, bufferA));
    (r.(aReadBWrite := aToB, bReadAWrite := bToA), d2)
  }

  /** `rebuild_scene_bind_group`: only the scene group is replaced; slot 0
      takes the first buffer argument and slot 1 the second. */
  function RebuildScene(r: Registry, d: Gpu.Device, sphereBuffer: Gpu.Handle, materialBuffer: Gpu.Handle)
    : (r': (Registry, Gpu.Device))
    ensures r'.0 == r.(scene := r'.0.scene)
    ensures r'.0.scene.layout == r.sceneLayout.id
    ensures r'.0.scene.slots == SceneEntries(sphereBuffer, materialBuffer)
    ensures Gpu.FreshFor(r'.0.scene.id, d) && r'.0.scene.id < r'.1.next
    ensures WellFormed(r) ==> WellFormed(r'.0)
  {
    var (g, d') := CreateGroup(d, r.sceneLayout, SceneEntries(sphereBuffer, materialBuffer));
    (r.(scene := g), d')
  }
}

=== FILE: camera.dfy ===
/** The camera (`PhysicalCamera` and `Camera`): orientation, position, viewport
    geometry and the uniform block the compute program reads. */
module Cameras {
  import opened Common
  import Gpu

  /** Pitch is kept within `[-PitchLimit, PitchLimit]` degrees. */
  const PitchLimit: real := 89.99

  /** The fixed reference axis the right vector is derived against. */
  const WorldDown: Vec3 := Vec3(0.0, -1.0, 0.0)

  datatype PhysicalCamera = PhysicalCamera(
    forward: Vec3,
    right: Vec3,
    up: Vec3,
    pitch: real,
    yaw: real,
    position: Vec3,
    aspect: real,
    viewportHeight: real,
    sensorWidth: PosReal,
    sensorHeight: PosReal)

  /** `CameraUniform`: four `vec3` values, each followed by a padding float. */
  datatype CameraUniform = CameraUniform(
    position: Vec3, pad0: real,
    lowerLeftPixel: Vec3, pad1: real,
    pixelDeltaX: Vec3, pad2: real,
    pixelDeltaY: Vec3, pad3: real)

  /** The camera with its uniform mirror and the handle of its GPU buffer. */
  datatype Camera = Camera(physical: PhysicalCamera, uniform: CameraUniform, buffer: Gpu.Handle)

  datatype Basis = Basis(forward: Vec3, right: Vec3, up: Vec3)

  /** `get_axes`: the forward vector from yaw and pitch, then right and up by
      cross products against the world's down axis. */
  function Axes(pitch: real, yaw: real, trig: Trig): Basis {
    var forward := Vec3(
      trig.cosDeg(yaw) * trig.cosDeg(pitch),
      -trig.sinDeg(pitch),
      -trig.sinDeg(yaw) * trig.cosDeg(pitch));
    var right := trig.normalize(Cross(forward, WorldDown));
    var up := trig.normalize(Cross(right, forward));
    Basis(forward, right, up)
  }

  /** The basis `Camera::new` writes down literally. */
  const InitialBasis: Basis := Basis(Vec3(0.0, 0.0, -1.0), Vec3(-1.0, 0.0, 0.0), Vec3(0.0, -1.0, 0.0))

  /** The hard-coded start basis is what `get_axes` derives for yaw 90 and
      pitch 0, given the usual values of sine and cosine there and a
      normalisation that leaves unit axis vectors alone. */
  lemma InitialBasisIsDerived(trig: Trig)
    requires trig.cosDeg(90.0) == 0.0 && trig.sinDeg(90.0) == 1.0
    requires trig.cosDeg(0.0) == 1.0 && trig.sinDeg(0.0) == 0.0
    requires trig.normalize(Vec3(-1.0, 0.0, 0.0)) == Vec3(-1.0, 0.0, 0.0)
    requires trig.normalize(Vec3(0.0, -1.0, 0.0)) == Vec3(0.0, -1.0, 0.0)
    ensures Axes(0.0, 90.0, trig) == InitialBasis
  {
    var forward := Axes(0.0, 90.0, trig).forward;
    assert forward == Vec3(0.0, 0.0, -1.0) by {
      ForwardAtYaw90(trig);
    }
    assert Cross(forward, WorldDown) == Vec3(-1.0, 0.0, 0.0);
    assert Cross(Vec3(-1.0, 0.0, 0.0), forward) == Vec3(0.0, -1.0, 0.0);
  }

  lemma ForwardAtYaw90(trig: Trig)
    requires trig.cosDeg(90.0) == 0.0 && trig.sinDeg(90.0) == 1.0
    requires trig.cosDeg(0.0) == 1.0 && trig.sinDeg(0.0) == 0.0
    ensures Axes(0.0, 90.0, trig).forward == Vec3(0.0, 0.0, -1.0)
  {
  }

  /** `pitch.clamp(-89.99, 89.99)`. */
  function ClampPitch(pitch: real): (r: real)
    ensures -PitchLimit <= r <= PitchLimit
    ensures -PitchLimit <= pitch <= PitchLimit ==> r == pitch
    ensures pitch < -PitchLimit ==> r == -PitchLimit
    ensures pitch > PitchLimit ==> r == PitchLimit
  {
    if pitch < -PitchLimit then -PitchLimit
    else if pitch > PitchLimit then PitchLimit
    else pitch
  }

  /** `build_uniform`: the viewport spans `viewport_height * aspect` along
      `right` and `viewport_height` against `up`; the pixel steps divide it by
      the sensor resolution. */
  function BuildUniform(c: PhysicalCamera): (u: CameraUniform)
    ensures u.position == c.position
    ensures u.pad0 == 0.0 && u.pad1 == 0.0 && u.pad2 == 0.0 && u.pad3 == 0.0
    ensures Scale(u.pixelDeltaX, c.sensorWidth) == Scale(c.right, c.viewportHeight * c.aspect)
    ensures Scale(u.pixelDeltaY, c.sensorHeight) == Scale(c.up, -c.viewportHeight)
  {
    var viewportWidth := c.viewportHeight * c.aspect;
    var viewportU := Scale(c.right, viewportWidth);
    var viewportV := Scale(c.up, -c.viewportHeight);
    var dx := Div(viewportU, c.sensorWidth);
    var dy := Div(viewportV, c.sensorHeight);
    DivThenScale(viewportU, c.sensorWidth);
    DivThenScale(viewportV, c.sensorHeight);
    var lowerLeft := Sub(Sub(Add(c.position, Scale(c.forward, 1.0)), Scale(viewportU, 0.5)), Scale(viewportV, 0.5));
    var lowerLeftPixel := Add(lowerLeft, Scale(Sub(dx, dy), 0.5));
    CameraUniform(c.position, 0.0, lowerLeftPixel, 0.0, dx, 0.0, dy, 0.0)
  }

  lemma DivThenScale(a: Vec3, k: PosReal)
    ensures Scale(Div(a, k), k) == a
  {
    assert (a.x / k) * k == a.x;
    assert (a.y / k) * k == a.y;
    assert (a.z / k) * k == a.z;
  }

  /** Where the pixel grid sits. Pixel `(i, j)` is at
      `lower_left_pixel + i * dx + j * dy`. Horizontally the grid is centred on
      the viewport centre `position + forward`: the midpoint index is
      `(W - 1) / 2`. Vertically the centre falls at index `(H + 1) / 2`, one
      step past the midpoint, because the half-pixel offset subtracts `dy`. */
  lemma {:induction false} PixelGridCentre(c: PhysicalCamera)
    ensures var u := BuildUniform(c);
      Add(u.lowerLeftPixel,
          Add(Scale(u.pixelDeltaX, (c.sensorWidth - 1.0) / 2.0),
              Scale(u.pixelDeltaY, (c.sensorHeight + 1.0) / 2.0)))
      == Add(c.position, c.forward)
  {
    var viewportU := Scale(c.right, c.viewportHeight * c.aspect);
    var viewportV := Scale(c.up, -c.viewportHeight);
    var u := BuildUniform(c);
    var dx, dy := Div(viewportU, c.sensorWidth), Div(viewportV, c.sensorHeight);
    assert u.pixelDeltaX == dx && u.pixelDeltaY == dy;
    assert u.lowerLeftPixel ==
      Add(Sub(Sub(Add(c.position, Scale(c.forward, 1.0)), Scale(viewportU, 0.5)), Scale(viewportV, 0.5)),
          Scale(Sub(dx, dy), 0.5));
    CentreVector(c.position, c.forward, viewportU, viewportV, c.sensorWidth, c.sensorHeight);
  }

  /** `PixelGridCentre` for any viewport vectors and resolution. */
  lemma CentreVector(p: Vec3, f: Vec3, vu: Vec3, vv: Vec3, w: PosReal, h: PosReal)
    ensures var dx, dy := Div(vu, w), Div(vv, h);
      Add(Add(Sub(Sub(Add(p, Scale(f, 1.0)), Scale(vu, 0.5)), Scale(vv, 0.5)), Scale(Sub(dx, dy), 0.5)),
          Add(Scale(dx, (w - 1.0) / 2.0), Scale(dy, (h + 1.0) / 2.0)))
      == Add(p, f)
  {
    CentreComponent(p.x, f.x, vu.x, vv.x, w, h);
    CentreComponent(p.y, f.y, vu.y, vv.y, w, h);
    CentreComponent(p.z, f.z, vu.z, vv.z, w, h);
  }

  /** One coordinate of `PixelGridCentre`. */
  lemma CentreComponent(p: real, f: real, vu: real, vv: real, w: PosReal, h: PosReal)
    ensures var dx, dy := vu / w, vv / h;
      ((p + f * 1.0) - vu * 0.5 - vv * 0.5 + (dx - dy) * 0.5)
        + (dx * ((w - 1.0) / 2.0) + dy * ((h + 1.0) / 2.0))
      == p + f
  {
    var dx, dy := vu / w, vv / h;
    assert dx * w == vu;
    assert dy * h == vv;
    assert dx * ((w - 1.0) / 2.0) == (dx * w) / 2.0 - dx / 2.0;
    assert dy * ((h + 1.0) / 2.0) == (dy * h) / 2.0 + dy / 2.0;
  }

  /** The mirror is in sync when it is what `build_uniform` makes of the
      current physical state. */
  predicate InSync(cam: Camera) {
    cam.uniform == BuildUniform(cam.physical)
  }

  /** Stores a new physical state and rebuilds the mirror from it. */
  function Rebuilt(cam: Camera, p: PhysicalCamera): (r: Camera)
    ensures InSync(r) && r.physical == p && r.buffer == cam.buffer
  {
    Camera(p, BuildUniform(p), cam.buffer)
  }

  /** `Camera::new`: the fixed start orientation (yaw 90, pitch 0) at the
      origin, the aspect ratio of the window, the viewport height for `fov`,
      a fresh uniform buffer and an in-sync mirror. */
  function New(size: Size, d: Gpu.Device, fov: real, trig: Trig): (r: (Camera, Gpu.Device))
    requires size.width > 0 && size.height > 0
    ensures var p := r.0.physical;
      && Basis(p.forward, p.right, p.up) == InitialBasis
      && p.pitch == 0.0 && p.yaw == 90.0 && p.position == Zero3
      && p.aspect * (size.height as real) == size.width as real
      && p.viewportHeight == trig.viewportHeight(fov)
      && p.sensorWidth == size.width as real && p.sensorHeight == size.height as real
    ensures InSync(r.0)
    ensures Gpu.FreshFor(r.0.buffer, d) && !Gpu.FreshFor(r.0.buffer, r.1)
  {
    var w: PosReal := size.width as real;
    var h: PosReal := size.height as real;
    var p := PhysicalCamera(
      InitialBasis.forward, InitialBasis.right, InitialBasis.up,
      0.0, 90.0, Zero3, w / h, trig.viewportHeight(fov), w, h);
    var (buffer, d') := Gpu.Allocate(d);
    (Camera(p, BuildUniform(p), buffer), d')
  }

  /** `set_position`: moves the camera and nothing else. */
  function SetPosition(cam: Camera, position: Vec3): (r: Camera)
    ensures r.physical == cam.physical.(position := position)
    ensures InSync(r) && r.buffer == cam.buffer
  {
    Rebuilt(cam, cam.physical.(position := position))
  }

  /** `set_rotation`: stores yaw as given and pitch clamped, and re-derives
      the basis from them. Position and viewport are untouched. */
  function SetRotation(cam: Camera, pitch: real, yaw: real, trig: Trig): (r: Camera)
    ensures -PitchLimit <= r.physical.pitch <= PitchLimit
    ensures -PitchLimit <= pitch <= PitchLimit ==> r.physical.pitch == pitch
    ensures pitch < -PitchLimit ==> r.physical.pitch == -PitchLimit
    ensures pitch > PitchLimit ==> r.physical.pitch == PitchLimit
    ensures r.physical.pitch == ClampPitch(pitch)
    ensures r.physical.yaw == yaw
    ensures Basis(r.physical.forward, r.physical.right, r.physical.up) == Axes(r.physical.pitch, yaw, trig)
    ensures r.physical.position == cam.physical.position
    ensures r.physical.aspect == cam.physical.aspect && r.physical.viewportHeight == cam.physical.viewportHeight
    ensures r.physical.sensorWidth == cam.physical.sensorWidth && r.physical.sensorHeight == cam.physical.sensorHeight
    ensures InSync(r) && r.buffer == cam.buffer
  {
    var clamped := ClampPitch(pitch);
    var axes := Axes(clamped, yaw, trig);
    Rebuilt(cam, cam.physical.(pitch := clamped, yaw := yaw,
      forward := axes.forward, right := axes.right, up := axes.up))
  }

  /** `set_fov`: only the viewport height changes. */
  function SetFov(cam: Camera, fov: real, trig: Trig): (r: Camera)
    ensures r.physical == cam.physical.(viewportHeight := trig.viewportHeight(fov))
    ensures InSync(r) && r.buffer == cam.buffer
  {
    Rebuilt(cam, cam.physical.(viewportHeight := trig.viewportHeight(fov)))
  }

  /** `PhysicalCamera::resize` followed by `build_uniform`: the sensor takes the
      new resolution and the aspect ratio is width over height. The caller
      only resizes to a non-empty size. */
  function Resize(cam: Camera, size: Size): (r: Camera)
    requires size.width > 0 && size.height > 0
    ensures r.physical.sensorWidth == size.width as real && r.physical.sensorHeight == size.height as real
    ensures r.physical.aspect * (size.height as real) == size.width as real
    ensures r.physical.(aspect := cam.physical.aspect, sensorWidth := cam.physical.sensorWidth,
      sensorHeight := cam.physical.sensorHeight) == cam.physical
    ensures InSync(r) && r.buffer == cam.buffer
  {
    var w: PosReal := size.width as real;
    var h: PosReal := size.height as real;
    Rebuilt(cam, cam.physical.(sensorWidth := w, sensorHeight := h, aspect := w / h))
  }
}

=== FILE: common.dfy ===
/** Shared vocabulary of the host-side model: fixed-width integers, window sizes,
    failure-compatible results, the panics of the original program, real vectors
    and the transcendental functions the model leaves uninterpreted. */
module Common {

  /** One more than the largest `u32`. */
  const U32_LIMIT: nat := 0x1_0000_0000

  /** An unsigned 32-bit value. Arithmetic on it is written out explicitly
      wherever the original could wrap. */
  type U32 = x: nat | x < U32_LIMIT

  /** A strictly positive real, used for quantities the original divides by. */
  type PosReal = r: real | r > 0.0 witness 1.0

  /** A window or surface size in physical pixels (`PhysicalSize<u32>`). */
  datatype Size = Size(width: U32, height: U32)

  /** Reasons a malformed OBJ line makes the importer panic. */
  datatype ObjReason =
    | MissingCoordinate   // a `v` line with fewer than three coordinates
    | BadCoordinate       // a coordinate that is not a float
    | BadIndex            // a face index that is not a `u32`
    | IndexUnderflow      // a face index `0`, so `index - 1` underflows
    | EmptyFace           // an `f` line without indices, so `len() - 1` underflows

  /** Every way the modelled code can panic. A panic ends the process, so a
      result carrying one of these has no successor state. */
  datatype Fault =
    | U32Overflow               // a `u32` add or multiply that leaves the range
    | MissingFrameBuffer        // `expect` on a frame buffer that is `None`
    | ObjMalformed(reason: ObjReason)

  datatype Option<+T> = None | Some(value: T)

  /** A failure-compatible result: `:-` propagates the panic. */
  datatype Result<+T> = Ok(value: T) | Err(fault: Fault) {
    predicate IsFailure() {
      Err?
    }

    function PropagateFailure<U>(): Result<U>
      requires Err?
    {
      Err(fault)
    }

    function Extract(): T
      requires Ok?
    {
      value
    }
  }

  /** `a + b` where both are `u32` and the sum is `u32`: out of range panics. */
  function AddU32(a: U32, b: U32): (r: Result<U32>)
    ensures r.Ok? <==> a + b < U32_LIMIT
    ensures r.Ok? ==> r.value == a + b
  {
    if a + b < U32_LIMIT then Ok(a + b) else Err(U32Overflow)
  }

  /** `a * b` on `u32`: out of range panics. */
  function MulU32(a: U32, b: U32): (r: Result<U32>)
    ensures r.Ok? <==> a * b < U32_LIMIT
    ensures r.Ok? ==> r.value == a * b
  {
    if a * b < U32_LIMIT then Ok(a * b) else Err(U32Overflow)
  }

  /** A 3-vector over the reals (the original's `Vector3<f32>` / `Point3<f32>`). */
  datatype Vec3 = Vec3(x: real, y: real, z: real)

  /** A 4-vector over the reals (`[f32; 4]`). */
  datatype Vec4 = Vec4(x: real, y: real, z: real, w: real)

  const Zero3: Vec3 := Vec3(0.0, 0.0, 0.0)
  const Zero4: Vec4 := Vec4(0.0, 0.0, 0.0, 0.0)
  const UnitY: Vec3 := Vec3(0.0, 1.0, 0.0)

  function Add(a: Vec3, b: Vec3): Vec3 {
    Vec3(a.x + b.x, a.y + b.y, a.z + b.z)
  }

  function Sub(a: Vec3, b: Vec3): Vec3 {
    Vec3(a.x - b.x, a.y - b.y, a.z - b.z)
  }

  function Scale(a: Vec3, k: real): Vec3 {
    Vec3(a.x * k, a.y * k, a.z * k)
  }

  /** Component-wise division by a positive scalar (`Vector3 / f32`). */
  function Div(a: Vec3, k: PosReal): Vec3 {
    Vec3(a.x / k, a.y / k, a.z / k)
  }

  function Cross(a: Vec3, b: Vec3): Vec3 {
    Vec3(a.y * b.z - a.z * b.y, a.z * b.x - a.x * b.z, a.x * b.y - a.y * b.x)
  }

  /** The outcome of asking the surface for its next image
      (`get_current_texture`): the image, or one of `wgpu::SurfaceError`. */
  datatype SurfaceStatus = Acquired | Lost | Outdated | Timeout | OutOfMemory | OtherSurfaceError

  /** The transcendental and normalising functions the original takes from its
      math library. The model reasons about every other step exactly over the
      reals and leaves these uninterpreted. Angles are in degrees. */
  datatype Trig = Trig(
    cosDeg: real -> real,
    sinDeg: real -> real,
    normalize: Vec3 -> Vec3,
    /** `2 / tan(fov / 2)`, the viewport height for a field of view. */
    viewportHeight: real -> real)
}

=== FILE: config.dfy ===
/** Tunable constants of the renderer (`StateConfigs`). */
module Config {

  datatype StateConfigs = StateConfigs(
    baseZoom: real,
    speed: real,
    focal: real,
    fov: real,
    /** Declared but never read: mouse look hard-codes its own factor. */
    sensitivity: real)

  /** `StateConfigs::default`. */
  const Default: StateConfigs := StateConfigs(1.5, 0.04, 1.0, 1.5708, 0.1)
}

=== FILE: dispatcher.dfy ===
/** The action dispatcher (`ActionDispatcher`): applies one tick's actions to
    the application state in order, summing movement, and moves the camera
    once at the end by the fly speed along the normalised sum. */
module Dispatcher {
  import opened Common
  import opened Input
  import Cameras
  import Scenes
  import Mesh
  import Engine
  import Config

  /** How much one scroll notch changes the zoom offset. */
  const ZoomStep: real := 0.01

  /** The zoom offset added to the configured zoom factor while zoomed. */
  datatype ActionDispatcher = ActionDispatcher(zoom: real)

  /** `ActionDispatcher::new`. */
  const Initial: ActionDispatcher := ActionDispatcher(0.0)

  /** What dispatching needs from outside the state: the maths library, the
      window's inner size once fullscreen is on or off, the random albedo and
      the mesh file that `setup_test_scene` would draw and read, and the float
      parser the OBJ importer uses. */
  datatype Env = Env(
    trig: Trig,
    windowSize: bool -> Size,
    albedo: Vec3,
    objLines: seq<string>,
    parseFloat: Mesh.FloatParser)

  /** The field of view a zoom offset selects. */
  function ZoomedFov(s: Engine.State, zoom: real): real {
    s.config.fov * (s.config.baseZoom + zoom)
  }

  function MarkMoved(s: Engine.State): (r: Engine.State)
    ensures r.input.flags.cameraHasMoved
    ensures r == s.(input := s.input.(flags := s.input.flags.(cameraHasMoved := true)))
  {
    s.(input := s.input.(flags := s.input.flags.(cameraHasMoved := true)))
  }

  /** Dispatch in progress: the dispatcher, the state and the movement summed
      so far. */
  datatype Progress = Progress(d: ActionDispatcher, s: Engine.State, movement: Vec3)

  /** What no action changes: the camera's orientation and position, the
      configured field of view and zoom factor, the key and button state and
      the bindings. */
  predicate Steady(p: Progress, q: Progress) {
    && q.s.camera.physical.forward == p.s.camera.physical.forward
    && q.s.camera.physical.right == p.s.camera.physical.right
    && q.s.camera.physical.position == p.s.camera.physical.position
    && q.s.config == p.s.config.(speed := q.s.config.speed)
    && q.s.input == p.s.input.(flags := q.s.input.flags)
    && q.s.input.flags.scrolledUp == p.s.input.flags.scrolledUp
    && q.s.input.flags.scrolledDown == p.s.input.flags.scrolledDown
    && q.s.frame == p.s.frame && q.s.timestep == p.s.timestep
  }

  /** The movement actions, which only add to the summed movement. */
  predicate IsMovement(a: Action) {
    a in {MoveForward, MoveBack, MoveRight, MoveLeft, MoveUp, MoveDown}
  }

  /** The movement arms: forward and right are added or subtracted, and up
      subtracts `+y` while down adds it. Any other action adds nothing. */
  function Accumulate(m: Vec3, forward: Vec3, right: Vec3, a: Action): (r: Vec3)
    ensures r == Add(m, Delta(forward, right, a))
  {
    match a
    case MoveForward => Add(m, forward)
    case MoveBack => Sub(m, forward)
    case MoveRight => Add(m, right)
    case MoveLeft => Sub(m, right)
    case MoveUp => Sub(m, UnitY)
    case MoveDown => Add(m, UnitY)
    case _ => m
  }

  /** The zoom arms: a new zoom offset, a field of view and a zoomed flag,
      and the camera marked moved. */
  function Refocus(p: Progress, zoom: real, fov: real, isZoomed: bool, trig: Trig): (r: Progress)
    ensures Steady(p, r) && r.movement == p.movement && r.d.zoom == zoom
    ensures r.s.input.flags.isZoomed == isZoomed && r.s.input.flags.cameraHasMoved
    ensures r.s.camera.physical.viewportHeight == trig.viewportHeight(fov)
    ensures r.s.config == p.s.config && r.s.quit == p.s.quit
    ensures r.s.camera == Cameras.SetFov(p.s.camera, fov, trig)
    ensures r.s.input == p.s.input.(flags := p.s.input.flags.(isZoomed := isZoomed, cameraHasMoved := true))
    // nothing but the camera's view and the two flags changes
    ensures r.s.(camera := p.s.camera, input := p.s.input) == p.s
    ensures Engine.Coherent(p.s) ==> Engine.Coherent(r.s)
  {
    var s := p.s;
    var s' := s.(camera := Cameras.SetFov(s.camera, fov, trig),
                 input := s.input.(flags := s.input.flags.(isZoomed := isZoomed)));
    Progress(ActionDispatcher(zoom), MarkMoved(s'), p.movement)
  }

  /** The zoom actions. */
  predicate IsZoom(a: Action) {
    a in {Zoom, UnZoom, ZoomIn, ZoomOut}
  }

  /** The four zoom arms. `Zoom` zooms to the current offset, `UnZoom`
      clears the offset and restores the configured view, and a scroll notch
      moves the offset by one step and leaves the zoomed flag alone. */
  function Rezoom(p: Progress, a: Action, trig: Trig): (r: Progress)
    requires IsZoom(a)
    ensures Steady(p, r) && r.movement == p.movement
    ensures a == UnZoom ==> r.d.zoom == 0.0
    ensures a != UnZoom ==> r.d.zoom == p.d.zoom + ZoomStep * (Step(a, ZoomIn, ZoomOut) as real)
    ensures r.s.camera == Cameras.SetFov(p.s.camera, if a == UnZoom then p.s.config.fov else ZoomedFov(p.s, r.d.zoom), trig)
    ensures a == Zoom ==> r.s.input.flags.isZoomed
    ensures a == UnZoom ==> !r.s.input.flags.isZoomed
    ensures a != Zoom && a != UnZoom ==> r.s.input.flags.isZoomed == p.s.input.flags.isZoomed
    ensures r.s.input == p.s.input.(flags := p.s.input.flags.(isZoomed := r.s.input.flags.isZoomed, cameraHasMoved := true))
    ensures r.s.(camera := p.s.camera, input := p.s.input) == p.s
    ensures Engine.Coherent(p.s) ==> Engine.Coherent(r.s)
  {
    var s := p.s;
    match a
    case Zoom => Refocus(p, p.d.zoom, ZoomedFov(s, p.d.zoom), true, trig)
    case UnZoom => Refocus(p, 0.0, s.config.fov, false, trig)
    case ZoomIn =>
      var zoom := p.d.zoom + ZoomStep;
      Refocus(p, zoom, ZoomedFov(s, zoom), s.input.flags.isZoomed, trig)
    case ZoomOut =>
      var zoom := p.d.zoom - ZoomStep;
      Refocus(p, zoom, ZoomedFov(s, zoom), s.input.flags.isZoomed, trig)
  }

  /** The fullscreen arm: the mode flips and the state is resized to the
      window size the platform reports for it. */
  function ToggleFullscreen(p: Progress, env: Env): (r: Result<Progress>)
    ensures r.Ok? ==> Steady(p, r.value) && r.value.movement == p.movement && r.value.d == p.d
    ensures r.Ok? ==> r.value.s.fullscreen == !p.s.fullscreen && r.value.s.input.flags.cameraHasMoved
    ensures r.Ok? ==> r.value.s.config == p.s.config && r.value.s.quit == p.s.quit
    ensures var on := !p.s.fullscreen;
      && (r.Ok? <==> Engine.Resize(p.s.(fullscreen := on), env.windowSize(on)).Ok?)
      && (r.Ok? ==> r.value.s == MarkMoved(Engine.Resize(p.s.(fullscreen := on), env.windowSize(on)).value))
    ensures r.Ok? && Engine.Coherent(p.s) ==> Engine.Coherent(r.value.s)
  {
    var on := !p.s.fullscreen;
    var s' :- Engine.Resize(p.s.(fullscreen := on), env.windowSize(on));
    Ok(p.(s := MarkMoved(s')))
  }

  /** The test arm: the scene is replaced by the imported test mesh. */
  function LoadTestScene(p: Progress, env: Env): (r: Result<Progress>)
    ensures r.Ok? <==> Mesh.ParseObj(env.objLines, env.parseFloat).Ok?
    ensures r.Ok? ==> Steady(p, r.value) && r.value.movement == p.movement && r.value.d == p.d
    ensures r.Ok? ==> r.value.s.input.flags.cameraHasMoved
    ensures r.Ok? ==> r.value.s.config == p.s.config && r.value.s.quit == p.s.quit
    ensures r.Ok? ==> var (sc, d') := Scenes.SetupTestScene(p.s.scene, p.s.device, env.albedo, env.objLines, env.parseFloat).value;
      r.value.s == MarkMoved(p.s.(scene := sc, device := d'))
    ensures r.Ok? && Engine.Coherent(p.s) ==> Engine.Coherent(r.value.s)
  {
    var s := p.s;
    var (scene, d') :- Scenes.SetupTestScene(s.scene, s.device, env.albedo, env.objLines, env.parseFloat);
    Ok(p.(s := MarkMoved(s.(scene := scene, device := d'))))
  }

  /** The other arms of `dispatch`. Only toggling fullscreen (through the
      resize) and loading the test scene (through the importer) can panic. */
  function Effect(p: Progress, a: Action, env: Env): (r: Result<Progress>)
    requires !IsMovement(a)
    ensures r.Err? ==> a == Fullscreen || a == Test
    ensures r.Ok? ==> Steady(p, r.value) && r.value.movement == p.movement
    ensures r.Ok? && !a.ZoomIn? && !a.ZoomOut? && !a.UnZoom? ==> r.value.d == p.d
    ensures r.Ok? && a != UnZoom ==> r.value.d.zoom == p.d.zoom + ZoomStep * (Step(a, ZoomIn, ZoomOut) as real)
    ensures a == ExitProgram ==> r == Ok(p.(s := p.s.(quit := true)))
    ensures a.SetFlySpeed? ==> r == Ok(p.(s := p.s.(config := p.s.config.(speed := a.speed))))
    ensures a == NoAction ==> r == Ok(p)
    ensures r.Ok? && a == UnZoom ==> r.value.d.zoom == 0.0
    ensures r.Ok? && a != ExitProgram ==> r.value.s.quit == p.s.quit
    ensures r.Ok? && !a.SetFlySpeed? ==> r.value.s.config == p.s.config
    ensures r.Ok? && a == Zoom ==> r.value.s.input.flags.isZoomed
    ensures r.Ok? && a == UnZoom ==> !r.value.s.input.flags.isZoomed
    ensures r.Ok? && a != Zoom && a != UnZoom ==> r.value.s.input.flags.isZoomed == p.s.input.flags.isZoomed
    ensures r.Ok? && a != Fullscreen && a != Test ==>
      r.value.s.(camera := p.s.camera, input := p.s.input, config := p.s.config, quit := p.s.quit) == p.s
  {
    var s := p.s;
    match a
    case ExitProgram => Ok(p.(s := Engine.Quit(s)))
    case Fullscreen => ToggleFullscreen(p, env)
    case Zoom | UnZoom | ZoomIn | ZoomOut => Ok(Rezoom(p, a, env.trig))
    case SetFlySpeed(speed) => Ok(p.(s := s.(config := s.config.(speed := speed))))
    case Test => LoadTestScene(p, env)
    case _ => Ok(p)
  }

  /** One arm of `dispatch`: movement actions add to the sum against the
      camera's current axes; every other action acts on the state. */
  function Apply(p: Progress, a: Action, env: Env): (r: Result<Progress>)
    ensures r.Err? ==> a == Fullscreen || a == Test
    ensures r.Ok? ==> Steady(p, r.value)
    ensures r.Ok? ==>
      r.value.movement == Add(p.movement, Delta(p.s.camera.physical.forward, p.s.camera.physical.right, a))
    ensures r.Ok? && !a.ZoomIn? && !a.ZoomOut? && !a.UnZoom? ==> r.value.d == p.d
    ensures r.Ok? && a != UnZoom ==> r.value.d.zoom == p.d.zoom + ZoomStep * (Step(a, ZoomIn, ZoomOut) as real)
    ensures IsMovement(a) ==> r.Ok? && r.value.s == p.s && r.value.d == p.d
    ensures a == ExitProgram ==> r == Ok(p.(s := p.s.(quit := true)))
    ensures a.SetFlySpeed? ==> r == Ok(p.(s := p.s.(config := p.s.config.(speed := a.speed))))
    ensures a == NoAction ==> r == Ok(p)
    ensures r.Ok? && a == UnZoom ==> r.value.d.zoom == 0.0
    ensures r.Ok? && a != ExitProgram ==> r.value.s.quit == p.s.quit
    ensures r.Ok? && !a.SetFlySpeed? ==> r.value.s.config == p.s.config
    ensures r.Ok? && a == Zoom ==> r.value.s.input.flags.isZoomed
    ensures r.Ok? && a == UnZoom ==> !r.value.s.input.flags.isZoomed
    ensures r.Ok? && a != Zoom && a != UnZoom ==> r.value.s.input.flags.isZoomed == p.s.input.flags.isZoomed
    ensures r.Ok? && a != Fullscreen && a != Test ==>
      r.value.s.(camera := p.s.camera, input := p.s.input, config := p.s.config, quit := p.s.quit) == p.s
  {
    var physical := p.s.camera.physical;
    var moved := Accumulate(p.movement, physical.forward, physical.right, a);
    if IsMovement(a) then Ok(p.(movement := moved))
    else Effect(p, a, env)
  }

  /** The loop of `dispatch`: the actions in order; the first panic ends it. */
  function ApplyAll(p: Progress, actions: seq<Action>, env: Env): (r: Result<Progress>)
    ensures r.Ok? ==> Steady(p, r.value)
    decreases |actions|
  {
    if |actions| == 0 then Ok(p)
    else
      var q :- ApplyAll(p, actions[..|actions| - 1], env);
      Apply(q, actions[|actions| - 1], env)
  }

  /** `dispatch`: the actions are applied in order, then a non-zero summed
      movement moves the camera by the fly speed along its direction (the
      speed in force after the last action) and marks it moved. */
  function Dispatch(d: ActionDispatcher, actions: seq<Action>, s: Engine.State, env: Env)
    : (r: Result<(ActionDispatcher, Engine.State)>)
    ensures r.Ok? <==> ApplyAll(Progress(d, s, Zero3), actions, env).Ok?
    ensures r.Ok? ==> var q := ApplyAll(Progress(d, s, Zero3), actions, env).value;
      && r.value.0 == q.d
      && (q.movement == Zero3 ==> r.value.1 == q.s)
      && (q.movement != Zero3 ==>
            && r.value.1.camera.physical == q.s.camera.physical.(position :=
                 Add(s.camera.physical.position, Scale(env.trig.normalize(q.movement), q.s.config.speed)))
            && r.value.1.camera == Cameras.SetPosition(q.s.camera,
                 Add(q.s.camera.physical.position, Scale(env.trig.normalize(q.movement), q.s.config.speed)))
            && r.value.1.input.flags.cameraHasMoved
            && r.value.1.input == q.s.input.(flags := q.s.input.flags.(cameraHasMoved := true))
            // the final move touches nothing the actions left behind but the camera and the moved flag
            && r.value.1.(camera := q.s.camera, input := q.s.input) == q.s)
    ensures r.Ok? ==> r.value.1.input == s.input.(flags := r.value.1.input.flags)
    ensures r.Ok? ==> r.value.1.input.flags.scrolledUp == s.input.flags.scrolledUp
    ensures r.Ok? ==> r.value.1.input.flags.scrolledDown == s.input.flags.scrolledDown
    ensures r.Ok? ==> r.value.1.frame == s.frame && r.value.1.timestep == s.timestep
  {
    var q :- ApplyAll(Progress(d, s, Zero3), actions, env);
    if q.movement != Zero3 then
      var position := Add(q.s.camera.physical.position, Scale(env.trig.normalize(q.movement), q.s.config.speed));
      Ok((q.d, MarkMoved(q.s.(camera := Cameras.SetPosition(q.s.camera, position)))))
    else
      Ok((q.d, q.s))
  }

  /** The arms that act on the state keep a running program coherent. */
  lemma EffectKeepsCoherent(p: Progress, a: Action, env: Env)
    requires !IsMovement(a) && Engine.Coherent(p.s) && Effect(p, a, env).Ok?
    ensures Engine.Coherent(Effect(p, a, env).value.s)
  {
  }

  /** Dispatching keeps a running program coherent. */
  lemma {:induction false} ApplyAllKeepsCoherent(p: Progress, actions: seq<Action>, env: Env)
    requires Engine.Coherent(p.s) && ApplyAll(p, actions, env).Ok?
    ensures Engine.Coherent(ApplyAll(p, actions, env).value.s)
    decreases |actions|
  {
    if |actions| > 0 {
      var init, a := actions[..|actions| - 1], actions[|actions| - 1];
      ApplyAllKeepsCoherent(p, init, env);
      var q := ApplyAll(p, init, env).value;
      assert ApplyAll(p, actions, env) == Apply(q, a, env);
      if !IsMovement(a) {
        assert Apply(q, a, env) == Effect(q, a, env);
        EffectKeepsCoherent(q, a, env);
      }
    }
  }

  lemma DispatchKeepsCoherent(d: ActionDispatcher, actions: seq<Action>, s: Engine.State, env: Env)
    requires Engine.Coherent(s) && Dispatch(d, actions, s, env).Ok?
    ensures Engine.Coherent(Dispatch(d, actions, s, env).value.1)
  {
    ApplyAllKeepsCoherent(Progress(d, s, Zero3), actions, env);
  }

  /** How many more times `plus` than `minus` occurs among the actions. */
  function Net(actions: seq<Action>, plus: Action, minus: Action): int {
    (multiset(actions)[plus] as int) - (multiset(actions)[minus] as int)
  }

  /** `forward * a + right * b + unit_y * c`, component by component. */
  function Combine(forward: Vec3, right: Vec3, a: real, b: real, c: real): Vec3 {
    Vec3(forward.x * a + right.x * b, forward.y * a + right.y * b + c, forward.z * a + right.z * b)
  }

  /** The summed movement written without the loop: forward and right
      weighted by how often their actions outnumber the opposite ones, and
      the vertical axis pointing down (`MoveDown` adds `+y`). */
  function NetMovement(forward: Vec3, right: Vec3, actions: seq<Action>): Vec3 {
    Combine(forward, right,
      Net(actions, MoveForward, MoveBack) as real,
      Net(actions, MoveRight, MoveLeft) as real,
      Net(actions, MoveDown, MoveUp) as real)
  }

  lemma NetOfSnoc(init: seq<Action>, a: Action, plus: Action, minus: Action)
    ensures Net(init + [a], plus, minus) == Net(init, plus, minus) + Step(a, plus, minus)
  {
    assert multiset(init + [a]) == multiset(init) + multiset{a};
  }

  /** How much one action adds to `plus` outnumbering `minus`. */
  function Step(a: Action, plus: Action, minus: Action): int {
    (if a == plus then 1 else 0) - (if a == minus then 1 else 0)
  }

  /** The signed unit direction each movement action stands for. */
  function Delta(forward: Vec3, right: Vec3, a: Action): Vec3 {
    match a
    case MoveForward => forward
    case MoveBack => Scale(forward, -1.0)
    case MoveRight => right
    case MoveLeft => Scale(right, -1.0)
    case MoveUp => Scale(UnitY, -1.0)
    case MoveDown => UnitY
    case _ => Zero3
  }

  /** One action's direction is `NetMovement` of that action alone: the
      weights are the action's `Step`s. */
  lemma DeltaIsStep(f: Vec3, r: Vec3, a: Action)
    ensures Delta(f, r, a) ==
      Combine(f, r, Step(a, MoveForward, MoveBack) as real, Step(a, MoveRight, MoveLeft) as real,
              Step(a, MoveDown, MoveUp) as real)
  {
    if a.MoveForward? || a.MoveBack? {
      assert Step(a, MoveRight, MoveLeft) == 0 && Step(a, MoveDown, MoveUp) == 0;
    } else if a.MoveRight? || a.MoveLeft? {
      assert Step(a, MoveForward, MoveBack) == 0 && Step(a, MoveDown, MoveUp) == 0;
    } else if a.MoveUp? || a.MoveDown? {
      assert Step(a, MoveForward, MoveBack) == 0 && Step(a, MoveRight, MoveLeft) == 0;
    } else {
      assert Step(a, MoveForward, MoveBack) == 0 && Step(a, MoveRight, MoveLeft) == 0;
      assert Step(a, MoveDown, MoveUp) == 0;
    }
  }

  lemma AddAssociative(a: Vec3, b: Vec3, c: Vec3)
    ensures Add(Add(a, b), c) == Add(a, Add(b, c))
  {
  }

  /** Weights add. */
  lemma CombineAdd(f: Vec3, r: Vec3, a: real, b: real, c: real, a': real, b': real, c': real)
    ensures Add(Combine(f, r, a, b, c), Combine(f, r, a', b', c')) == Combine(f, r, a + a', b + b', c + c')
  {
    assert f.x * (a + a') == f.x * a + f.x * a';
    assert f.y * (a + a') == f.y * a + f.y * a';
    assert f.z * (a + a') == f.z * a + f.z * a';
    assert r.x * (b + b') == r.x * b + r.x * b';
    assert r.y * (b + b') == r.y * b + r.y * b';
    assert r.z * (b + b') == r.z * b + r.z * b';
  }

  lemma NetMovementOfSnoc(forward: Vec3, right: Vec3, init: seq<Action>, a: Action)
    ensures NetMovement(forward, right, init + [a]) == Add(NetMovement(forward, right, init), Delta(forward, right, a))
  {
    NetOfSnoc(init, a, MoveForward, MoveBack);
    NetOfSnoc(init, a, MoveRight, MoveLeft);
    NetOfSnoc(init, a, MoveDown, MoveUp);
    DeltaIsStep(forward, right, a);
    CombineAdd(forward, right,
      Net(init, MoveForward, MoveBack) as real, Net(init, MoveRight, MoveLeft) as real, Net(init, MoveDown, MoveUp) as real,
      Step(a, MoveForward, MoveBack) as real, Step(a, MoveRight, MoveLeft) as real, Step(a, MoveDown, MoveUp) as real);
  }

  /** The summed movement depends only on how many of each movement action
      there are, not on their order or on what else the tick did. */
  lemma {:induction false} MovementIsNetCount(p: Progress, actions: seq<Action>, env: Env)
    requires ApplyAll(p, actions, env).Ok?
    ensures ApplyAll(p, actions, env).value.movement ==
      Add(p.movement, NetMovement(p.s.camera.physical.forward, p.s.camera.physical.right, actions))
    decreases |actions|
  {
    var f, rt := p.s.camera.physical.forward, p.s.camera.physical.right;
    if |actions| == 0 {
      assert multiset(actions) == multiset{};
    } else {
      var init, a := actions[..|actions| - 1], actions[|actions| - 1];
      assert actions == init + [a];
      MovementIsNetCount(p, init, env);
      var q := ApplyAll(p, init, env).value;
      assert ApplyAll(p, actions, env) == Apply(q, a, env);
      assert q.s.camera.physical.forward == f && q.s.camera.physical.right == rt;
      NetMovementOfSnoc(f, rt, init, a);
      AddAssociative(p.movement, NetMovement(f, rt, init), Delta(f, rt, a));
    }
  }

  /** Opposite movements cancel exactly: when every movement action is
      matched by its opposite, the camera does not move and the tick is not
      marked as moved on account of movement. */
  lemma BalancedMovesStayPut(d: ActionDispatcher, actions: seq<Action>, s: Engine.State, env: Env)
    requires Dispatch(d, actions, s, env).Ok?
    requires Net(actions, MoveForward, MoveBack) == 0
    requires Net(actions, MoveRight, MoveLeft) == 0
    requires Net(actions, MoveDown, MoveUp) == 0
    ensures Dispatch(d, actions, s, env).value.1 == ApplyAll(Progress(d, s, Zero3), actions, env).value.s
    ensures Dispatch(d, actions, s, env).value.1.camera.physical.position == s.camera.physical.position
  {
    MovementIsNetCount(Progress(d, s, Zero3), actions, env);
  }

  /** Holding only the forward key for one tick moves the camera by the fly
      speed along its normalised forward direction. */
  lemma ForwardMovesBySpeed(d: ActionDispatcher, s: Engine.State, env: Env)
    requires s.camera.physical.forward != Zero3
    ensures Dispatch(d, [MoveForward], s, env).Ok?
    ensures var s' := Dispatch(d, [MoveForward], s, env).value.1;
      && s'.camera.physical.position ==
           Add(s.camera.physical.position, Scale(env.trig.normalize(s.camera.physical.forward), s.config.speed))
      && s'.input.flags.cameraHasMoved
  {
    var p := Progress(d, s, Zero3);
    assert [MoveForward][..0] == [];
    assert ApplyAll(p, [MoveForward], env) == Apply(p, MoveForward, env);
    assert Add(Zero3, s.camera.physical.forward) == s.camera.physical.forward;
  }

  /** The zoom offset counts scroll steps: with no `UnZoom` among the
      actions it moves by one step per `ZoomIn` and back per `ZoomOut`. */
  lemma {:induction false} ZoomCountsSteps(p: Progress, actions: seq<Action>, env: Env)
    requires ApplyAll(p, actions, env).Ok? && UnZoom !in actions
    ensures ApplyAll(p, actions, env).value.d.zoom == p.d.zoom + ZoomStep * (Net(actions, ZoomIn, ZoomOut) as real)
    decreases |actions|
  {
    if |actions| == 0 {
      assert multiset(actions) == multiset{};
    } else {
      var init, a := actions[..|actions| - 1], actions[|actions| - 1];
      assert actions == init + [a];
      assert UnZoom !in init;
      ZoomCountsSteps(p, init, env);
      var q := ApplyAll(p, init, env).value;
      assert ApplyAll(p, actions, env) == Apply(q, a, env);
      NetOfSnoc(init, a, ZoomIn, ZoomOut);
    }
  }

  /** While zoomed, the viewport follows the zoom offset: after `Zoom`,
      `ZoomIn` or `ZoomOut` it is the height for the configured field of view
      scaled by the zoom factor plus the offset; `UnZoom` restores the
      configured field of view and clears the offset and the zoomed flag. */
  lemma ZoomSetsViewport(p: Progress, a: Action, env: Env)
    requires a in {Zoom, ZoomIn, ZoomOut, UnZoom}
    ensures Apply(p, a, env).Ok?
    ensures var q := Apply(p, a, env).value;
      && q.s.input.flags.cameraHasMoved
      && (a != UnZoom ==>
            q.s.camera.physical.viewportHeight == env.trig.viewportHeight(ZoomedFov(p.s, q.d.zoom)))
      && (a == Zoom ==> q.s.input.flags.isZoomed)
      && (a == UnZoom ==>
            && q.d.zoom == 0.0 && !q.s.input.flags.isZoomed
            && q.s.camera.physical.viewportHeight == env.trig.viewportHeight(p.s.config.fov))
  {
  }

  /** However the zoom wandered during a tick, a final `UnZoom` leaves the
      configured field of view in force, no offset and no zoom. */
  lemma UnZoomRestores(d: ActionDispatcher, actions: seq<Action>, s: Engine.State, env: Env)
    requires |actions| > 0 && actions[|actions| - 1] == UnZoom
    requires Dispatch(d, actions, s, env).Ok?
    ensures var (d', s') := Dispatch(d, actions, s, env).value;
      && d'.zoom == 0.0 && !s'.input.flags.isZoomed
      && s'.camera.physical.viewportHeight == env.trig.viewportHeight(s.config.fov)
  {
    var p := Progress(d, s, Zero3);
    var init := actions[..|actions| - 1];
    var q := ApplyAll(p, init, env).value;
    ZoomSetsViewport(q, UnZoom, env);
  }

  /** The control key's two speeds agree with the configuration: under the
      default configuration, pressing the key boosts the fly speed and
      releasing it puts the default configuration back in force. */
  lemma BoostThenReleaseRestoresDefaults(p: Progress, env: Env)
    requires p.s.config == Config.Default
    ensures Apply(p, SetFlySpeed(BoostSpeed), env).Ok?
    ensures var q := Apply(p, SetFlySpeed(BoostSpeed), env).value;
      && q.s.config.speed == BoostSpeed
      && Apply(q, SetFlySpeed(CruiseSpeed), env).Ok?
      && Apply(q, SetFlySpeed(CruiseSpeed), env).value.s.config == Config.Default
  {
  }

  /** The quit flag after a tick's actions is raised exactly when it already
      was or one of the actions was `ExitProgram`. */
  lemma {:induction false} QuitIffExit(p: Progress, actions: seq<Action>, env: Env)
    requires ApplyAll(p, actions, env).Ok?
    ensures ApplyAll(p, actions, env).value.s.quit <==> p.s.quit || ExitProgram in actions
    decreases |actions|
  {
    if |actions| > 0 {
      QuitIffExit(p, actions[..|actions| - 1], env);
      LastStep(p, actions, env);
      InSnoc(ExitProgram, actions);
    }
  }

  lemma InSnoc(x: Action, actions: seq<Action>)
    requires |actions| > 0
    ensures x in actions <==> x in actions[..|actions| - 1] || x == actions[|actions| - 1]
  {
    assert actions == actions[..|actions| - 1] + [actions[|actions| - 1]];
  }

  /** No action from index `k` on sets the fly speed. */
  predicate NoSpeedSetFrom(actions: seq<Action>, k: nat) {
    forall j :: k <= j < |actions| ==> !actions[j].SetFlySpeed?
  }

  /** The fly speed after a tick's actions is the one the last `SetFlySpeed`
      among them set, or the old one when there is none. */
  lemma {:induction false} FlySpeedIsLastSet(p: Progress, actions: seq<Action>, env: Env)
    requires ApplyAll(p, actions, env).Ok?
    ensures var speed := ApplyAll(p, actions, env).value.s.config.speed;
      && (NoSpeedSetFrom(actions, 0) ==> speed == p.s.config.speed)
      && (forall i :: 0 <= i < |actions| && actions[i].SetFlySpeed? && NoSpeedSetFrom(actions, i + 1) ==>
            speed == actions[i].speed)
  {
    SpeedFollowsActions(p, actions, env);
    LastSpeedIsLastSet(p.s.config.speed, actions);
  }

  /** The speed left by a list of actions that starts from `speed`: the
      value of the last SetFlySpeed, if any. */
  function LastSpeed(speed: real, actions: seq<Action>): real
    decreases |actions|
  {
    if |actions| == 0 then speed
    else if actions[|actions| - 1].SetFlySpeed? then actions[|actions| - 1].speed
    else LastSpeed(speed, actions[..|actions| - 1])
  }

  lemma {:induction false} SpeedFollowsActions(p: Progress, actions: seq<Action>, env: Env)
    requires ApplyAll(p, actions, env).Ok?
    ensures ApplyAll(p, actions, env).value.s.config.speed == LastSpeed(p.s.config.speed, actions)
    decreases |actions|
  {
    if |actions| > 0 {
      LastStep(p, actions, env);
      SpeedFollowsActions(p, actions[..|actions| - 1], env);
    }
  }

  lemma {:induction false} LastSpeedIsLastSet(speed: real, actions: seq<Action>)
    ensures NoSpeedSetFrom(actions, 0) ==> LastSpeed(speed, actions) == speed
    ensures forall i :: 0 <= i < |actions| && actions[i].SetFlySpeed? && NoSpeedSetFrom(actions, i + 1) ==>
      LastSpeed(speed, actions) == actions[i].speed
    decreases |actions|
  {
    if |actions| > 0 {
      var init, a := actions[..|actions| - 1], actions[|actions| - 1];
      LastSpeedIsLastSet(speed, init);
      if a.SetFlySpeed? {
        assert actions[|actions| - 1].SetFlySpeed?;
      } else {
        forall k | 0 <= k <= |init|
          ensures NoSpeedSetFrom(actions, k) <==> NoSpeedSetFrom(init, k)
        {
          NoSpeedSetFromSnoc(actions, init, k);
        }
        assert forall i :: 0 <= i < |init| ==> actions[i] == init[i];
      }
    }
  }

  /** The last action of a list raises quit or keeps it as the others left
      it, sets the speed or keeps it, and sets or clears the zoomed flag or
      keeps it. */
  lemma LastStep(p: Progress, actions: seq<Action>, env: Env)
    requires |actions| > 0 && ApplyAll(p, actions, env).Ok?
    ensures ApplyAll(p, actions[..|actions| - 1], env).Ok?
    ensures var a, q := actions[|actions| - 1], ApplyAll(p, actions[..|actions| - 1], env).value;
      && ApplyAll(p, actions, env).value.s.quit == (q.s.quit || a == ExitProgram)
      && ApplyAll(p, actions, env).value.s.config.speed == (if a.SetFlySpeed? then a.speed else q.s.config.speed)
      && ApplyAll(p, actions, env).value.s.input.flags.isZoomed ==
           if a == Zoom then true else if a == UnZoom then false else q.s.input.flags.isZoomed
  {
    var q := ApplyAll(p, actions[..|actions| - 1], env).value;
    assert ApplyAll(p, actions, env) == Apply(q, actions[|actions| - 1], env);
  }

  /** Appending an action that sets no speed changes nothing about where the
      speed was last set. */
  lemma NoSpeedSetFromSnoc(actions: seq<Action>, init: seq<Action>, k: nat)
    requires |actions| > 0 && init == actions[..|actions| - 1] && !actions[|actions| - 1].SetFlySpeed?
    requires k <= |init|
    ensures NoSpeedSetFrom(actions, k) <==> NoSpeedSetFrom(init, k)
  {
    assert forall j :: k <= j < |init| ==> init[j] == actions[j];
  }

  /** No action from index `k` on is `Zoom` or `UnZoom`. */
  predicate NoZoomToggleFrom(actions: seq<Action>, k: nat) {
    forall j :: k <= j < |actions| ==> actions[j] != Zoom && actions[j] != UnZoom
  }

  /** The zoomed flag after a tick's actions is set when the last `Zoom` or
      `UnZoom` among them is `Zoom`, clear when it is `UnZoom`, and the old
      flag when there is neither; scroll notches leave it alone. */
  lemma {:induction false} ZoomedIsLastToggle(p: Progress, actions: seq<Action>, env: Env)
    requires ApplyAll(p, actions, env).Ok?
    ensures var zoomed := ApplyAll(p, actions, env).value.s.input.flags.isZoomed;
      && (NoZoomToggleFrom(actions, 0) ==> zoomed == p.s.input.flags.isZoomed)
      && (forall i :: 0 <= i < |actions| && (actions[i] == Zoom || actions[i] == UnZoom) && NoZoomToggleFrom(actions, i + 1) ==>
            zoomed == (actions[i] == Zoom))
  {
    ZoomedFollowsActions(p, actions, env);
    LastZoomedIsLastToggle(p.s.input.flags.isZoomed, actions);
  }

  /** The zoomed flag left by a list of actions that starts from `zoomed`. */
  function LastZoomed(zoomed: bool, actions: seq<Action>): bool
    decreases |actions|
  {
    if |actions| == 0 then zoomed
    else if actions[|actions| - 1] == Zoom then true
    else if actions[|actions| - 1] == UnZoom then false
    else LastZoomed(zoomed, actions[..|actions| - 1])
  }

  lemma {:induction false} ZoomedFollowsActions(p: Progress, actions: seq<Action>, env: Env)
    requires ApplyAll(p, actions, env).Ok?
    ensures ApplyAll(p, actions, env).value.s.input.flags.isZoomed == LastZoomed(p.s.input.flags.isZoomed, actions)
    decreases |actions|
  {
    if |actions| > 0 {
      LastStep(p, actions, env);
      ZoomedFollowsActions(p, actions[..|actions| - 1], env);
    }
  }

  lemma {:induction false} LastZoomedIsLastToggle(zoomed: bool, actions: seq<Action>)
    ensures NoZoomToggleFrom(actions, 0) ==> LastZoomed(zoomed, actions) == zoomed
    ensures forall i :: 0 <= i < |actions| && (actions[i] == Zoom || actions[i] == UnZoom) && NoZoomToggleFrom(actions, i + 1) ==>
      LastZoomed(zoomed, actions) == (actions[i] == Zoom)
    decreases |actions|
  {
    if |actions| > 0 {
      var init, a := actions[..|actions| - 1], actions[|actions| - 1];
      LastZoomedIsLastToggle(zoomed, init);
      if a == Zoom || a == UnZoom {
        assert actions[|actions| - 1] == a;
      } else {
        forall k | 0 <= k <= |init|
          ensures NoZoomToggleFrom(actions, k) <==> NoZoomToggleFrom(init, k)
        {
          NoZoomToggleFromSnoc(actions, init, k);
        }
        assert forall i :: 0 <= i < |init| ==> actions[i] == init[i];
      }
    }
  }

  /** Appending an action that is neither `Zoom` nor `UnZoom` changes nothing
      about where the flag was last set or cleared. */
  lemma NoZoomToggleFromSnoc(actions: seq<Action>, init: seq<Action>, k: nat)
    requires |actions| > 0 && init == actions[..|actions| - 1]
    requires actions[|actions| - 1] != Zoom && actions[|actions| - 1] != UnZoom
    requires k <= |init|
    ensures NoZoomToggleFrom(actions, k) <==> NoZoomToggleFrom(init, k)
  {
    assert forall j :: k <= j < |init| ==> init[j] == actions[j];
  }

  /** Over a whole dispatch, whether or not the camera moves, the program is
      left quitting exactly when it already was or an `ExitProgram` was
      dispatched. */
  lemma DispatchQuitsOnExit(d: ActionDispatcher, actions: seq<Action>, s: Engine.State, env: Env)
    requires Dispatch(d, actions, s, env).Ok?
    ensures Dispatch(d, actions, s, env).value.1.quit <==> s.quit || ExitProgram in actions
  {
    QuitIffExit(Progress(d, s, Zero3), actions, env);
  }
}

=== FILE: engine.dfy ===
/** The application state (`State`) and the operations `lib.rs` defines on it:
    resizing, rebuilding the resolution-dependent resources, recording a
    frame, and reacting to window events. */
module Engine {
  import opened Common
  import Gpu
  import Config
  import Timing
  import FrameCounters
  import Cameras
  import Scenes
  import TextureSet
  import BindGroups
  import Input

  /** The fixed logic step, `Duration::from_secs_f32(1.0 / 120.0)` in
      nanoseconds: the `f32` nearest to 1/120 rounded to whole nanoseconds. */
  const Timestep: nat := 8_333_334

  /** `FrameInfo` without its clocks and FPS counter: the time not yet
      consumed by logic ticks (nanoseconds), the frame uniform and the buffer
      mirroring it (absent until the surface is configured). */
  datatype FrameInfo = FrameInfo(accum: nat, uniform: FrameCounters.FrameUniform, frameBuffer: Option<Gpu.Handle>)

  datatype State = State(
    size: Size,
    surfaceConfig: Size,        // the width and height of `SurfaceConfiguration`
    fullscreen: bool,
    frame: FrameInfo,
    camera: Cameras.Camera,
    scene: Scenes.Scene,
    config: Config.StateConfigs,
    bindGroups: BindGroups.Registry,
    textures: TextureSet.Textures,
    input: Input.Handler,
    timestep: nat,
    quit: bool,
    device: Gpu.Device,
    sampler: Gpu.Handle)

  /** The resolution-dependent bindings follow the current textures: the
      compute group writes the current view and reads the frame buffer, the
      fragment group samples the current view, and the ping-pong groups pair
      the current accumulation buffers both ways round. */
  predicate Wired(s: State) {
    && s.frame.frameBuffer.Some?
    && TextureSet.Sized(s.textures, s.size)
    && s.textures.bufferA.id != s.textures.bufferB.id
    && s.bindGroups.compute.slots == BindGroups.ComputeEntries(s.textures.view.id, s.frame.frameBuffer.value)
    && s.bindGroups.fragment.slots == BindGroups.FragmentEntries(s.textures.view.id, s.sampler)
    && s.bindGroups.aReadBWrite.slots == BindGroups.PairEntries(s.textures.bufferA.id, s.textures.bufferB.id)
    && s.bindGroups.bReadAWrite.slots == BindGroups.PairEntries(s.textures.bufferB.id, s.textures.bufferA.id)
  }

  /** The state invariant of a running program: a non-empty size that the
      surface configuration and the camera sensor agree with, a camera whose
      uniform mirrors it and which the camera group binds, a well-formed
      registry wired to the current textures, and a logic step of `Timestep`
      with an accumulator holding less than one step. */
  predicate Coherent(s: State) {
    && s.timestep == Timestep
    && Timing.Settled(s.frame.accum, s.timestep)
    && s.size.width > 0 && s.size.height > 0
    && s.surfaceConfig == s.size
    && s.camera.physical.sensorWidth == s.size.width as real
    && s.camera.physical.sensorHeight == s.size.height as real
    && Cameras.InSync(s.camera)
    && BindGroups.WellFormed(s.bindGroups)
    && s.bindGroups.camera.slots == [BindGroups.BufferRes(s.camera.buffer)]
    && Wired(s)
  }

  /** Everything but the resolution-dependent parts is left alone. */
  predicate KeepsNonResolution(s: State, s': State) {
    && s'.fullscreen == s.fullscreen && s'.frame == s.frame
    && s'.scene == s.scene && s'.config == s.config && s'.input == s.input
    && s'.timestep == s.timestep && s'.quit == s.quit && s'.sampler == s.sampler
    && s'.bindGroups.scene == s.bindGroups.scene && s'.bindGroups.camera == s.bindGroups.camera
    && BindGroups.SameLayouts(s.bindGroups, s'.bindGroups)
  }

  /** `rebuild_texture_and_bind_groups`: new textures for `size`, then fresh
      compute, fragment and ping-pong groups over them. A pixel count that
      leaves `u32` or a missing frame buffer panics. */
  function RebuildTextureAndBindGroups(s: State, size: Size): (r: Result<State>)
    ensures r.Ok? <==> size.width * size.height < U32_LIMIT && s.frame.frameBuffer.Some?
    ensures r.Ok? ==> var s' := r.value;
      && s'.size == s.size && s'.surfaceConfig == s.surfaceConfig && s'.camera == s.camera
      && KeepsNonResolution(s, s')
      && TextureSet.Sized(s'.textures, size)
      && TextureSet.FreshBetween(s'.textures, s.device, s'.device)
      && Wired(s'.(size := size))
      && (BindGroups.WellFormed(s.bindGroups) ==> BindGroups.WellFormed(s'.bindGroups))
  {
    var (textures, d1) :- TextureSet.New(s.device, size);
    var (g1, d2) :- BindGroups.RebuildCompute(s.bindGroups, d1, s.frame.frameBuffer, textures.view.id);
    var (g2, d3) := BindGroups.RebuildFragment(g1, d2, s.sampler, textures.view.id);
    var (g3, d4) := BindGroups.RebuildTextureBuffers(g2, d3, textures.bufferA.id, textures.bufferB.id);
    Ok(s.(textures := textures, bindGroups := g3, device := d4))
  }

  /** `State::resize`: a size with a zero side is ignored (a minimised
      window); otherwise the surface, the camera sensor and every
      resolution-dependent resource take the new size. */
  function Resize(s: State, size: Size): (r: Result<State>)
    ensures size.width == 0 || size.height == 0 ==> r == Ok(s)
    ensures size.width > 0 && size.height > 0 ==>
      (r.Ok? <==> size.width * size.height < U32_LIMIT && s.frame.frameBuffer.Some?)
    ensures size.width > 0 && size.height > 0 && r.Ok? ==> var s' := r.value;
      && s'.size == size && s'.surfaceConfig == size
      && s'.camera == Cameras.Resize(s.camera, size)
      && s'.camera.physical.sensorWidth == size.width as real
      && s'.camera.physical.sensorHeight == size.height as real
      && s'.camera.physical.aspect * (size.height as real) == size.width as real
      && s'.camera.physical.position == s.camera.physical.position
      && s'.camera.physical.forward == s.camera.physical.forward
      && s'.camera.physical.right == s.camera.physical.right
      && s'.camera.physical.up == s.camera.physical.up
      && s'.camera.physical.pitch == s.camera.physical.pitch
      && s'.camera.physical.yaw == s.camera.physical.yaw
      && s'.camera.physical.viewportHeight == s.camera.physical.viewportHeight
      && s'.camera.buffer == s.camera.buffer && Cameras.InSync(s'.camera)
      && KeepsNonResolution(s, s')
      && Wired(s')
      && TextureSet.FreshBetween(s'.textures, s.device, s'.device)
  {
    if size.width > 0 && size.height > 0 then
      var s1 := s.(size := size, surfaceConfig := size, camera := Cameras.Resize(s.camera, size));
      RebuildTextureAndBindGroups(s1, size)
    else
      Ok(s)
  }

  /** Resizing keeps a running program coherent. */
  lemma ResizeKeepsCoherent(s: State, size: Size)
    requires Coherent(s) && Resize(s, size).Ok?
    ensures Coherent(Resize(s, size).value)
  {
  }

  /** The resolution-dependent resources after a resize depend only on the
      new size: resizing twice to the same size gives the same bindings as
      resizing once, up to fresh handles. */
  lemma ResizeIsIdempotentUpToHandles(s: State, size: Size)
    requires Coherent(s) && size.width > 0 && size.height > 0 && Resize(s, size).Ok?
    ensures Resize(Resize(s, size).value, size).Ok?
    ensures var s1 := Resize(s, size).value;
      var s2 := Resize(s1, size).value;
      && s2.size == s1.size && s2.camera == s1.camera
      && s2.textures.view.(id := 0, texture := 0) == s1.textures.view.(id := 0, texture := 0)
      && s2.textures.bufferA.contents == s1.textures.bufferA.contents
      && s2.textures.bufferB.contents == s1.textures.bufferB.contents
  {
    var s1 := Resize(s, size).value;
    assert s1.frame.frameBuffer.Some?;
  }

  /** A recorded compute dispatch: the four bind groups in slot order and the
      workgroup grid. */
  datatype ComputePass = ComputePass(groups: seq<Gpu.Handle>, workgroupsX: U32, workgroupsY: U32, workgroupsZ: U32)

  /** A recorded frame: the compute pass, then a full-screen draw of
      `vertexCount` vertices with the fragment group bound. */
  datatype FrameCommands = FrameCommands(compute: ComputePass, fragmentGroup: Gpu.Handle, vertexCount: nat, instanceCount: nat)

  datatype RenderOutcome = Presented(commands: FrameCommands) | SurfaceFailed(status: SurfaceStatus)

  /** The ping-pong group of this frame: A read and B written on even
      frames, the reverse on odd ones. */
  function PingPongGroup(s: State): BindGroups.BindGroup {
    match FrameCounters.SelectPingPong(s.frame.uniform.frameIndex)
    case AReadBWrite => s.bindGroups.aReadBWrite
    case BReadAWrite => s.bindGroups.bReadAWrite
  }

  /** `State::render`. The surface's next image is an input: when it cannot
      be had, nothing is recorded and its error is returned. Otherwise the
      compute pass binds the compute, camera, scene and ping-pong groups and
      covers the surface with 8x8 tiles, and the render pass draws one
      triangle. The tile count `(w + 7) / 8` is a `u32` sum and panics when
      it leaves the range. */
  function Render(s: State, surface: SurfaceStatus): (r: Result<RenderOutcome>)
    ensures surface != Acquired ==> r == Ok(SurfaceFailed(surface))
    ensures surface == Acquired ==>
      (r.Ok? <==> s.size.width + 7 < U32_LIMIT && s.size.height + 7 < U32_LIMIT)
    ensures surface == Acquired && r.Ok? ==> r.value.Presented? && var c := r.value.commands;
      && c.compute.groups == [s.bindGroups.compute.id, s.bindGroups.camera.id, s.bindGroups.scene.id, PingPongGroup(s).id]
      && c.compute.workgroupsX * FrameCounters.TileSize >= s.size.width
      && c.compute.workgroupsY * FrameCounters.TileSize >= s.size.height
      && (c.compute.workgroupsX > 0 ==> (c.compute.workgroupsX - 1) * FrameCounters.TileSize < s.size.width)
      && (c.compute.workgroupsY > 0 ==> (c.compute.workgroupsY - 1) * FrameCounters.TileSize < s.size.height)
      && c.compute.workgroupsZ == 1
      && c.fragmentGroup == s.bindGroups.fragment.id
      && c.vertexCount == 3 && c.instanceCount == 1
  {
    if surface != Acquired then Ok(SurfaceFailed(surface))
    else
      var x :- FrameCounters.WorkgroupCount(s.size.width);
      var y :- FrameCounters.WorkgroupCount(s.size.height);
      var groups := [s.bindGroups.compute.id, s.bindGroups.camera.id, s.bindGroups.scene.id, PingPongGroup(s).id];
      Ok(Presented(FrameCommands(ComputePass(groups, x, y, 1), s.bindGroups.fragment.id, 3, 1)))
  }

  /** The accumulation buffer the frame's compute pass reads, and the one it
      writes, as bound in the ping-pong group's two slots. */
  function ReadBuffer(s: State): Option<Gpu.Handle> {
    var g := PingPongGroup(s);
    if |g.slots| == 2 && g.slots[0].BufferRes? then Some(g.slots[0].buffer) else None
  }

  function WrittenBuffer(s: State): Option<Gpu.Handle> {
    var g := PingPongGroup(s);
    if |g.slots| == 2 && g.slots[1].BufferRes? then Some(g.slots[1].buffer) else None
  }

  /** Progressive accumulation: each frame reads what the previous frame
      wrote, and writes what it read, and the two are the distinct
      accumulation buffers. */
  lemma EachFrameReadsThePreviousWrite(s: State, n: nat)
    requires Wired(s) && n + 1 < U32_LIMIT
    ensures var now := s.(frame := s.frame.(uniform := s.frame.uniform.(frameIndex := n)));
      var next := s.(frame := s.frame.(uniform := s.frame.uniform.(frameIndex := n + 1)));
      && ReadBuffer(now).Some? && WrittenBuffer(now).Some?
      && ReadBuffer(now) != WrittenBuffer(now)
      && ReadBuffer(next) == WrittenBuffer(now)
      && WrittenBuffer(next) == ReadBuffer(now)
      && {ReadBuffer(now).value, WrittenBuffer(now).value} == {s.textures.bufferA.id, s.textures.bufferB.id}
  {
    FrameCounters.PingPongAlternates(n);
  }

  /** What one window event did: the new state, whether the loop was asked
      to exit, and the frame recorded for it, if any. */
  datatype EventOutcome = EventOutcome(state: State, exit: bool, drawn: Option<FrameCommands>)

  /** `State::process_event`: close exits, a resize resizes, and a redraw
      renders; a lost or outdated surface is reconfigured at the current
      size, running out of memory or an unknown surface error exits, and a
      timeout skips the frame. Every other event is ignored here. */
  function ProcessEvent(s: State, ev: Input.Event): (r: Result<EventOutcome>)
    ensures ev.CloseRequested? ==> r == Ok(EventOutcome(s, true, None))
    ensures ev.Resized? ==>
      (r.Ok? <==> Resize(s, ev.size).Ok?)
      && (r.Ok? ==> r.value == EventOutcome(Resize(s, ev.size).value, false, None))
    ensures ev.RedrawRequested? && ev.surface in {Lost, Outdated} ==>
      (r.Ok? <==> Resize(s, s.size).Ok?)
      && (r.Ok? ==> r.value == EventOutcome(Resize(s, s.size).value, false, None))
    ensures ev.RedrawRequested? && ev.surface in {OutOfMemory, OtherSurfaceError} ==>
      r == Ok(EventOutcome(s, true, None))
    ensures ev.RedrawRequested? && ev.surface == Timeout ==> r == Ok(EventOutcome(s, false, None))
    ensures ev.RedrawRequested? && ev.surface == Acquired ==>
      (r.Ok? <==> Render(s, Acquired).Ok?)
      && (r.Ok? ==> r.value.state == s && !r.value.exit
                    && r.value.drawn == Some(Render(s, Acquired).value.commands))
    ensures !(ev.CloseRequested? || ev.Resized? || ev.RedrawRequested?) ==> r == Ok(EventOutcome(s, false, None))
  {
    if ev.CloseRequested? then Ok(EventOutcome(s, true, None))
    else if ev.Resized? then
      var s' :- Resize(s, ev.size);
      Ok(EventOutcome(s', false, None))
    else if ev.RedrawRequested? then
      var outcome :- Render(s, ev.surface);
      match outcome
      case Presented(commands) => Ok(EventOutcome(s, false, Some(commands)))
      case SurfaceFailed(status) =>
        match status
        case Lost =>
          var s' :- Resize(s, s.size);
          Ok(EventOutcome(s', false, None))
        case Outdated =>
          var s' :- Resize(s, s.size);
          Ok(EventOutcome(s', false, None))
        case Timeout => Ok(EventOutcome(s, false, None))
        case _ => Ok(EventOutcome(s, true, None))
    else Ok(EventOutcome(s, false, None))
  }

  /** Window events keep a running program coherent, and the only event that
      draws is a redraw with an acquired image. */
  lemma ProcessEventKeepsCoherent(s: State, ev: Input.Event)
    requires Coherent(s) && ProcessEvent(s, ev).Ok?
    ensures Coherent(ProcessEvent(s, ev).value.state)
    ensures ProcessEvent(s, ev).value.drawn.Some? ==> ev == Input.RedrawRequested(Acquired)
  {
    if ev.Resized? {
      ResizeKeepsCoherent(s, ev.size);
    } else if ev.RedrawRequested? && ev.surface in {Lost, Outdated} {
      ResizeKeepsCoherent(s, s.size);
    }
  }

  /** `State::quit`. */
  function Quit(s: State): (r: State)
    ensures r.quit && r == s.(quit := true)
  {
    s.(quit := true)
  }
}

=== FILE: event_loop.dfy ===
/** The event-loop closure of `run`: every event first goes to the input
    handler; a poll event then advances the frame counters, turns elapsed time
    into fixed logic ticks and runs them; finally the state reacts to the
    event itself. */
module EventLoop {
  import opened Common
  import Timing
  import FrameCounters
  import Cameras
  import Input
  import Engine
  import Dispatcher

  function OrdersFor(order: Input.KeyOrder, keys: Input.EdgeSets<Input.Key>): (o: Input.Orders)
    ensures Input.ListsKeys(o, keys)
  {
    Input.Orders(order(keys.justPressed), order(keys.held), order(keys.justReleased))
  }

  function ClearMoved(s: Engine.State): Engine.State {
    s.(input := s.input.(flags := s.input.flags.(cameraHasMoved := false)))
  }

  /** One logic tick of the loop body: the moved flag is cleared, the frame's
      actions are collected and dispatched. After it the per-frame key edges
      and scroll flags are gone and the held keys and bindings are as they
      were. */
  function Tick(d: Dispatcher.ActionDispatcher, s: Engine.State, env: Dispatcher.Env,
                order: Input.KeyOrder): (r: Result<(Dispatcher.ActionDispatcher, Engine.State)>)
    ensures r.Ok? ==> var s' := r.value.1;
      && s'.input.keys == Input.EdgeSets({}, {}, s.input.keys.held)
      && s'.input.mouse == Input.EdgeSets({}, {}, s.input.mouse.held)
      && s'.input.bindings == s.input.bindings
      && !s'.input.flags.scrolledUp && !s'.input.flags.scrolledDown
      && s'.frame == s.frame && s'.timestep == s.timestep
  {
    var s1 := ClearMoved(s);
    var (actions, h) := Input.GetActions(s1.input, OrdersFor(order, s1.input.keys));
    Dispatcher.Dispatch(d, actions, s1.(input := h), env)
  }

  /** The loop's moved flag only ever reports the current tick: a tick's
      outcome does not depend on the flag it starts with. */
  lemma TickForgetsMovedFlag(d: Dispatcher.ActionDispatcher, s: Engine.State, env: Dispatcher.Env,
                             order: Input.KeyOrder, moved: bool)
    ensures Tick(d, s, env, order) ==
      Tick(d, s.(input := s.input.(flags := s.input.flags.(cameraHasMoved := moved))), env, order)
  {
    assert ClearMoved(s) == ClearMoved(s.(input := s.input.(flags := s.input.flags.(cameraHasMoved := moved))));
  }

  /** `n` applications of a step that can panic, one after another; the
      first panic ends the run. */
  function Repeat<S>(step: S -> Result<S>, x: S, n: nat): Result<S>
    decreases n
  {
    if n == 0 then Ok(x)
    else
      var y :- Repeat(step, x, n - 1);
      step(y)
  }

  /** What every step keeps, every run of steps keeps. */
  lemma {:induction false} RepeatKeeps<S>(step: S -> Result<S>, inv: S -> bool, x: S, n: nat)
    requires inv(x)
    requires forall y :: inv(y) && step(y).Ok? ==> inv(step(y).value)
    ensures Repeat(step, x, n).Ok? ==> inv(Repeat(step, x, n).value)
    decreases n
  {
    if n > 0 {
      RepeatKeeps(step, inv, x, n - 1);
    }
  }

  /** One logic tick as a step of the tick loop. */
  function TickStep(env: Dispatcher.Env, order: Input.KeyOrder)
    : ((Dispatcher.ActionDispatcher, Engine.State)) -> Result<(Dispatcher.ActionDispatcher, Engine.State)>
  {
    (x: (Dispatcher.ActionDispatcher, Engine.State)) => Tick(x.0, x.1, env, order)
  }

  /** `n` ticks, one after another; the first panic ends the program. */
  function RunTicks(d: Dispatcher.ActionDispatcher, s: Engine.State, n: nat, env: Dispatcher.Env,
                    order: Input.KeyOrder): (r: Result<(Dispatcher.ActionDispatcher, Engine.State)>)
    ensures r.Ok? ==> r.value.1.frame == s.frame && r.value.1.timestep == s.timestep
  {
    var inv := (x: (Dispatcher.ActionDispatcher, Engine.State)) => x.1.frame == s.frame && x.1.timestep == s.timestep;
    RepeatKeeps(TickStep(env, order), inv, (d, s), n);
    Repeat(TickStep(env, order), (d, s), n)
  }

  /** The poll block: the frame counters advance with the moved flag as the
      previous ticks and mouse motion left it, the elapsed time (clamped to a
      quarter second) is turned into whole logic steps, and that many ticks
      run. */
  function PollTick(d: Dispatcher.ActionDispatcher, s: Engine.State, elapsed: nat, env: Dispatcher.Env,
                    order: Input.KeyOrder): (r: Result<(Dispatcher.ActionDispatcher, Engine.State)>)
    requires Timing.Settled(s.frame.accum, s.timestep)
    ensures FrameCounters.AdvanceFrame(s.frame.uniform, s.input.flags.cameraHasMoved).Err? ==> r.Err?
    ensures r.Ok? ==> var s' := r.value.1;
      && s'.frame.uniform == FrameCounters.AdvanceFrame(s.frame.uniform, s.input.flags.cameraHasMoved).value
      && s'.frame.frameBuffer == s.frame.frameBuffer
      && s'.frame.accum == (s.frame.accum + Timing.ClampFrame(elapsed)) % s.timestep
      && Timing.Settled(s'.frame.accum, s'.timestep)
  {
    var uniform :- FrameCounters.AdvanceFrame(s.frame.uniform, s.input.flags.cameraHasMoved);
    var advance := Timing.AdvanceClock(s.frame.accum, s.timestep, elapsed);
    Timing.FloorDivUnique(s.frame.accum + Timing.ClampFrame(elapsed), s.timestep, advance.ticks, advance.accum);
    var s1 := s.(frame := s.frame.(uniform := uniform, accum := advance.accum));
    RunTicks(d, s1, advance.ticks, env, order)
  }

  /** A poll runs exactly as many ticks as whole logic steps fit in the time
      banked so far, starting from the advanced counters and the remainder. */
  lemma PollRunsWholeSteps(d: Dispatcher.ActionDispatcher, s: Engine.State, elapsed: nat, env: Dispatcher.Env,
                           order: Input.KeyOrder)
    requires Timing.Settled(s.frame.accum, s.timestep)
    requires FrameCounters.AdvanceFrame(s.frame.uniform, s.input.flags.cameraHasMoved).Ok?
    ensures var total := s.frame.accum + Timing.ClampFrame(elapsed);
      var uniform := FrameCounters.AdvanceFrame(s.frame.uniform, s.input.flags.cameraHasMoved).value;
      PollTick(d, s, elapsed, env, order)
        == RunTicks(d, s.(frame := s.frame.(uniform := uniform, accum := total % s.timestep)),
                    total / s.timestep, env, order)
  {
    Timing.AdvanceIsDivision(s.frame.accum, s.timestep, elapsed);
  }

  lemma TickKeepsCoherent(d: Dispatcher.ActionDispatcher, s: Engine.State, env: Dispatcher.Env,
                          order: Input.KeyOrder)
    requires Engine.Coherent(s) && Tick(d, s, env, order).Ok?
    ensures Engine.Coherent(Tick(d, s, env, order).value.1)
  {
    var s1 := ClearMoved(s);
    var (actions, h) := Input.GetActions(s1.input, OrdersFor(order, s1.input.keys));
    Dispatcher.DispatchKeepsCoherent(d, actions, s1.(input := h), env);
  }

  lemma RunTicksKeepsCoherent(d: Dispatcher.ActionDispatcher, s: Engine.State, n: nat,
                              env: Dispatcher.Env, order: Input.KeyOrder)
    requires Engine.Coherent(s)
    ensures RunTicks(d, s, n, env, order).Ok? ==> Engine.Coherent(RunTicks(d, s, n, env, order).value.1)
  {
    var step := TickStep(env, order);
    var inv := (x: (Dispatcher.ActionDispatcher, Engine.State)) => Engine.Coherent(x.1);
    forall y | inv(y) && step(y).Ok?
      ensures inv(step(y).value)
    {
      TickKeepsCoherent(y.0, y.1, env, order);
    }
    RepeatKeeps(step, inv, (d, s), n);
  }

  lemma PollTickKeepsCoherent(d: Dispatcher.ActionDispatcher, s: Engine.State, elapsed: nat, env: Dispatcher.Env,
                              order: Input.KeyOrder)
    requires Engine.Coherent(s) && PollTick(d, s, elapsed, env, order).Ok?
    ensures Engine.Coherent(PollTick(d, s, elapsed, env, order).value.1)
  {
    var uniform := FrameCounters.AdvanceFrame(s.frame.uniform, s.input.flags.cameraHasMoved).value;
    var advance := Timing.AdvanceClock(s.frame.accum, s.timestep, elapsed);
    var s1 := s.(frame := s.frame.(uniform := uniform, accum := advance.accum));
    RunTicksKeepsCoherent(d, s1, advance.ticks, env, order);
  }

  /** What one pass of the closure did. */
  datatype StepOutcome = StepOutcome(
    dispatcher: Dispatcher.ActionDispatcher,
    state: Engine.State,
    exit: bool,
    drawn: Option<Engine.FrameCommands>)

  /** Mouse-look keeps a running program coherent. */
  lemma ProcessInputKeepsCoherent(s: Engine.State, ev: Input.Event, trig: Trig)
    requires Engine.Coherent(s)
    ensures var (h, cam) := Input.ProcessInput(s.input, s.camera, ev, trig);
      Engine.Coherent(s.(input := h, camera := cam))
  {
  }

  /** The closure passed to `EventLoop::run`. An exit requested by
      `ExitProgram` (the quit flag) takes effect at the next event, and the
      rest of the closure still runs for the event that sees it. */
  function Step(d: Dispatcher.ActionDispatcher, s: Engine.State, ev: Input.Event, env: Dispatcher.Env,
                order: Input.KeyOrder): (r: Result<StepOutcome>)
    requires Timing.Settled(s.frame.accum, s.timestep)
    ensures r.Ok? && s.quit ==> r.value.exit
    ensures r.Ok? ==> Timing.Settled(r.value.state.frame.accum, r.value.state.timestep)
    ensures r.Ok? && !ev.Poll? ==> r.value.dispatcher == d && r.value.state.frame == s.frame
    ensures r.Ok? && ev.Poll? ==>
      r.value.state.frame.uniform.frameIndex == s.frame.uniform.frameIndex + 1
  {
    var (h, cam) := Input.ProcessInput(s.input, s.camera, ev, env.trig);
    var s1 := s.(input := h, camera := cam);
    var (d2, s2) :- if ev.Poll? then PollTick(d, s1, ev.elapsed, env, order) else Ok((d, s1));
    var out :- Engine.ProcessEvent(s2, ev);
    Ok(StepOutcome(d2, out.state, s.quit || out.exit, out.drawn))
  }

  /** Every pass of the closure keeps a running program coherent. */
  lemma StepKeepsCoherent(d: Dispatcher.ActionDispatcher, s: Engine.State, ev: Input.Event, env: Dispatcher.Env,
                          order: Input.KeyOrder)
    requires Engine.Coherent(s) && Step(d, s, ev, env, order).Ok?
    ensures Engine.Coherent(Step(d, s, ev, env, order).value.state)
  {
    var (h, cam) := Input.ProcessInput(s.input, s.camera, ev, env.trig);
    var s1 := s.(input := h, camera := cam);
    ProcessInputKeepsCoherent(s, ev, env.trig);
    if ev.Poll? {
      PollTickKeepsCoherent(d, s1, ev.elapsed, env, order);
    }
    var (d2, s2) := (if ev.Poll? then PollTick(d, s1, ev.elapsed, env, order) else Ok((d, s1))).value;
    Engine.ProcessEventKeepsCoherent(s2, ev);
  }

  /** Holding only the forward key under the default bindings, unzoomed, one
      logic tick flies the camera by the fly speed along its normalised
      forward direction and marks it moved. */
  lemma HoldingForwardFlies(d: Dispatcher.ActionDispatcher, s: Engine.State, env: Dispatcher.Env,
                            order: Input.KeyOrder)
    requires s.input.bindings == Input.NewDefaults().bindings
    requires s.input.keys == Input.EdgeSets({}, {}, {Input.KeyW})
    requires !s.input.flags.isZoomed
    requires s.camera.physical.forward != Zero3
    ensures Tick(d, s, env, order).Ok?
    ensures var s' := Tick(d, s, env, order).value.1;
      && s'.camera.physical.position ==
           Add(s.camera.physical.position, Scale(env.trig.normalize(s.camera.physical.forward), s.config.speed))
      && s'.input.flags.cameraHasMoved
  {
    var s1 := ClearMoved(s);
    var o := OrdersFor(order, s1.input.keys);
    ForwardKeyEmitsMoveForward(s1.input, o);
    var (actions, h) := Input.GetActions(s1.input, o);
    assert Tick(d, s, env, order) == Dispatcher.Dispatch(d, [Input.MoveForward], s1.(input := h), env);
    Dispatcher.ForwardMovesBySpeed(d, s1.(input := h), env);
  }

  /** Under the default bindings, a frame in which only the forward key is
      held yields exactly one `MoveForward`. */
  lemma ForwardKeyEmitsMoveForward(h: Input.Handler, o: Input.Orders)
    requires h.bindings == Input.NewDefaults().bindings
    requires h.keys == Input.EdgeSets({}, {}, {Input.KeyW})
    requires Input.ListsKeys(o, h.keys)
    requires !h.flags.isZoomed
    ensures Input.GetActions(h, o).0 == [Input.MoveForward]
  {
    assert Input.Enumerates(o.pressed, {});
    assert Input.Enumerates(o.released, {});
    assert Input.Enumerates(o.held, {Input.KeyW});
    EnumerationOfEmpty(o.pressed);
    EnumerationOfEmpty(o.released);
    EnumerationOfSingleton(o.held, Input.KeyW);
    var b := h.bindings;
    assert Input.Emit([Input.KeyW], b, Input.WhileHeld) == [Input.MoveForward] by {
      assert Input.KeyW in b;
      assert [Input.KeyW][1..] == [];
    }
    assert Input.ZoomTail(h.flags) == [];
  }

  lemma EnumerationOfEmpty(order: seq<Input.Key>)
    requires Input.Enumerates(order, {})
    ensures order == []
  {
  }

  lemma EnumerationOfSingleton(order: seq<Input.Key>, k: Input.Key)
    requires Input.Enumerates(order, {k})
    ensures order == [k]
  {
    assert order[0] in order;
  }
}

=== FILE: frame_counters.dfy ===
/** The per-frame uniform (`FrameUniform.global_frame_info`), the ping-pong
    role selection and the compute workgroup counts of the render loop. */
module FrameCounters {
  import opened Common

  /** `global_frame_info: [u32; 4]`. Slot 0 counts polls, slot 1 counts polls
      since the camera last moved; slots 2 and 3 are never written. */
  datatype FrameUniform = FrameUniform(frameIndex: U32, framesSinceMoved: U32, spare2: U32, spare3: U32)

  /** The uniform as created: `[0; 4]`. */
  const InitialUniform: FrameUniform := FrameUniform(0, 0, 0, 0)

  /** The counter block run once per poll: slot 0 gains one; slot 1 gains one
      when the camera stayed put and is reset when it moved. Both are `u32 += 1`,
      which panics on overflow in a debug build. */
  function AdvanceFrame(f: FrameUniform, cameraHasMoved: bool): (r: Result<FrameUniform>)
    ensures r.Ok? <==> f.frameIndex + 1 < U32_LIMIT && (cameraHasMoved || f.framesSinceMoved + 1 < U32_LIMIT)
    ensures r.Ok? ==> r.value.frameIndex == f.frameIndex + 1
    ensures r.Ok? && cameraHasMoved ==> r.value.framesSinceMoved == 0
    ensures r.Ok? && !cameraHasMoved ==> r.value.framesSinceMoved == f.framesSinceMoved + 1
    ensures r.Ok? ==> r.value.spare2 == f.spare2 && r.value.spare3 == f.spare3
  {
    var index :- AddU32(f.frameIndex, 1);
    if cameraHasMoved then
      Ok(f.(frameIndex := index, framesSinceMoved := 0))
    else
      var since :- AddU32(f.framesSinceMoved, 1);
      Ok(f.(frameIndex := index, framesSinceMoved := since))
  }

  /** Runs the counter block for a history of polls, one moved-flag per poll. */
  function AdvanceFrames(f: FrameUniform, history: seq<bool>): Result<FrameUniform>
    decreases |history|
  {
    if |history| == 0 then Ok(f)
    else
      var f' :- AdvanceFrames(f, history[..|history| - 1]);
      AdvanceFrame(f', history[|history| - 1])
  }

  /** How many polls at the end of `history` saw a still camera. */
  function StillSuffix(history: seq<bool>): nat
    ensures StillSuffix(history) <= |history|
    decreases |history|
  {
    if |history| == 0 || history[|history| - 1] then 0
    else StillSuffix(history[..|history| - 1]) + 1
  }

  /** The counters after any history, stated without the step function: the
      frame index has grown by the number of polls, and frames-since-moved is
      the length of the trailing still run, plus the starting value when the
      camera never moved. */
  lemma {:induction false} FramesSinceMovedCountsStillRun(f: FrameUniform, history: seq<bool>)
    requires AdvanceFrames(f, history).Ok?
    ensures AdvanceFrames(f, history).value.frameIndex == f.frameIndex + |history|
    ensures AdvanceFrames(f, history).value.framesSinceMoved ==
      if true in history then StillSuffix(history) else f.framesSinceMoved + |history|
  {
    if |history| > 0 {
      var init := history[..|history| - 1];
      assert AdvanceFrames(f, init).Ok?;
      FramesSinceMovedCountsStillRun(f, init);
      if !history[|history| - 1] {
        assert true in history <==> true in init by {
          assert history == init + [history[|history| - 1]];
        }
      } else {
        assert history[|history| - 1] in history;
      }
    }
  }

  /** Which accumulation pairing the compute pass binds at group 3. */
  datatype PingPong = AReadBWrite | BReadAWrite

  /** Role selection: even frames read A and write B, odd frames the reverse. */
  function SelectPingPong(frameIndex: nat): PingPong {
    if frameIndex % 2 == 0 then AReadBWrite else BReadAWrite
  }

  /** The selection depends on parity alone: it has period two and flips on
      every frame. */
  lemma PingPongAlternates(n: nat)
    ensures SelectPingPong(n) == SelectPingPong(n + 2)
    ensures SelectPingPong(n) != SelectPingPong(n + 1)
  {
  }

  /** Compute workgroups are 8x8 tiles. */
  const TileSize: nat := 8

  /** `(extent + 7) / 8` on `u32`: the add panics past the top of the range. */
  function WorkgroupCount(extent: U32): (r: Result<U32>)
    ensures r.Ok? <==> extent + 7 < U32_LIMIT
    ensures r.Ok? ==> r.value * TileSize >= extent
    ensures r.Ok? && r.value > 0 ==> (r.value - 1) * TileSize < extent
  {
    var padded :- AddU32(extent, TileSize - 1);
    Ok(padded / TileSize)
  }
}

=== FILE: gpu.dfy ===
/** GPU resources as abstract handles. A device hands out handles in increasing
    order, so a handle at or above `next` has never been handed out: that is
    what "a fresh allocation" means in this model. */
module Gpu {

  type Handle = nat

  /** The device as an allocator: every handle already handed out is below `next`. */
  datatype Device = Device(next: Handle)

  /** A handle that no earlier allocation on `d` returned. */
  predicate FreshFor(h: Handle, d: Device) {
    h >= d.next
  }

  /** Allocates one handle. */
  function Allocate(d: Device): (r: (Handle, Device))
    ensures FreshFor(r.0, d) && !FreshFor(r.0, r.1)
    ensures r.1.next == r.0 + 1
  {
    (d.next, Device(d.next + 1))
  }

  /** A GPU buffer: its handle and the snapshot of data it was created from. */
  datatype Buffer<T> = Buffer(id: Handle, contents: seq<T>)

  /** Creates a buffer initialised with `contents` (`create_buffer_init`). */
  function CreateBuffer<T>(d: Device, contents: seq<T>): (r: (Buffer<T>, Device))
    ensures FreshFor(r.0.id, d) && r.1.next == r.0.id + 1
    ensures r.0.contents == contents
  {
    var (h, d') := Allocate(d);
    (Buffer(h, contents), d')
  }
}

=== FILE: input.dfy ===
/** The input handler (`InputHandler`): key and mouse-button edge tracking,
    scroll flags, the key-binding table, the translation of one frame's input
    into an ordered list of actions, and mouse-look. */
module Input {
  import opened Common
  import Cameras

  /** The physical keys the default bindings name; every other key code is
      `OtherKey`. */
  datatype Key =
    | KeyW | KeyA | KeyS | KeyD | Space | ShiftLeft
    | Escape | F11 | KeyC | KeyT | ControlLeft
    | OtherKey(code: nat)

  datatype MouseButton = LeftButton | RightButton | MiddleButton | OtherButton(id: nat)

  datatype ElementState = Pressed | Released

  /** The abstract commands a binding produces. `NoAction` is the original's
      `Action::None`. */
  datatype Action =
    | MoveForward | MoveBack | MoveRight | MoveLeft | MoveUp | MoveDown
    | ExitProgram | Zoom | UnZoom | ZoomIn | ZoomOut | Test | Fullscreen
    | SetFlySpeed(speed: real)
    | NoAction

  /** The three positions of a binding: the action on the frame the key goes
      down, on every frame it is held, and on the frame it comes up. */
  datatype Slot = OnPress | WhileHeld | OnRelease

  datatype Slots = Slots(onPress: Action, whileHeld: Action, onRelease: Action) {
    function At(slot: Slot): Action {
      match slot
      case OnPress => onPress
      case WhileHeld => whileHeld
      case OnRelease => onRelease
    }
  }

  datatype Flags = Flags(isZoomed: bool, scrolledUp: bool, scrolledDown: bool, cameraHasMoved: bool)

  const NoFlags: Flags := Flags(false, false, false, false)

  /** Edge tracking for keys (`Keys`) and for mouse buttons (`Mouse`, whose
      `just_clicked` is `justPressed` here). */
  datatype EdgeSets<T> = EdgeSets(justPressed: set<T>, justReleased: set<T>, held: set<T>)

  function NoEdges<T>(): EdgeSets<T> {
    EdgeSets({}, {}, {})
  }

  datatype Handler = Handler(
    bindings: map<Key, Slots>,
    flags: Flags,
    keys: EdgeSets<Key>,
    mouse: EdgeSets<MouseButton>)

  /** `key_press` and `mouse_click`: a press of something not yet held marks
      it held and just pressed, a press of something already held (a missed
      release) changes nothing; a release unholds it and marks it just
      released. */
  function Press<T>(e: EdgeSets<T>, state: ElementState, x: T): (r: EdgeSets<T>)
    ensures state == Pressed ==> r.held == e.held + {x} && r.justReleased == e.justReleased
    ensures state == Pressed && x in e.held ==> r.justPressed == e.justPressed
    ensures state == Pressed && x !in e.held ==> r.justPressed == e.justPressed + {x}
    ensures state == Released ==> r.held == e.held - {x} && r.justReleased == e.justReleased + {x}
    ensures state == Released ==> r.justPressed == e.justPressed
  {
    match state
    case Pressed =>
      if x in e.held then e
      else e.(held := e.held + {x}, justPressed := e.justPressed + {x})
    case Released =>
      e.(held := e.held - {x}, justReleased := e.justReleased + {x})
  }

  /** Feeding a sequence of button events, oldest first. */
  function PressAll<T>(e: EdgeSets<T>, events: seq<(ElementState, T)>): EdgeSets<T>
    decreases |events|
  {
    if |events| == 0 then e
    else Press(PressAll(e, events[..|events| - 1]), events[|events| - 1].0, events[|events| - 1].1)
  }

  /** The state of the most recent event about `x`, if any. */
  function LastStateOf<T(==)>(events: seq<(ElementState, T)>, x: T): Option<ElementState>
    decreases |events|
  {
    if |events| == 0 then None
    else if events[|events| - 1].1 == x then Some(events[|events| - 1].0)
    else LastStateOf(events[..|events| - 1], x)
  }

  /** Whatever the order of events, a key is held exactly when its most recent
      event was a press, or it had no event and was held before. */
  lemma {:induction false} HeldFollowsLastEvent<T>(e: EdgeSets<T>, events: seq<(ElementState, T)>, x: T)
    ensures x in PressAll(e, events).held <==>
      LastStateOf(events, x) == Some(Pressed) || (LastStateOf(events, x).None? && x in e.held)
    decreases |events|
  {
    if |events| > 0 {
      HeldFollowsLastEvent(e, events[..|events| - 1], x);
    }
  }

  /** A key is just released after a sequence of events exactly when it was
      before or some event released it; releases are never forgotten within
      a frame. */
  lemma {:induction false} JustReleasedCollects<T>(e: EdgeSets<T>, events: seq<(ElementState, T)>, x: T)
    ensures x in PressAll(e, events).justReleased <==>
      x in e.justReleased || (Released, x) in events
    decreases |events|
  {
    if |events| > 0 {
      var init := events[..|events| - 1];
      JustReleasedCollects(e, init, x);
      assert events == init + [events[|events| - 1]];
      assert (Released, x) in events <==> (Released, x) in init || events[|events| - 1] == (Released, x);
    }
  }

  /** A mouse wheel report: lines (a notched wheel) or pixels (a touchpad). */
  datatype ScrollDelta = LineDelta(x: real, y: real) | PixelDelta(x: real, y: real)

  /** The events the program reacts to, flattened from the windowing
      library's window and device events. `Poll` is the notification that
      starts each iteration of a polling event loop, carrying the wall-clock
      time since the previous one, in nanoseconds. */
  datatype Event =
    | KeyboardInput(physicalKey: Option<Key>, state: ElementState, repeat: bool)
    | MouseWheel(delta: ScrollDelta)
    | MouseInput(state: ElementState, button: MouseButton)
    | MouseMotion(dx: real, dy: real)
    | Resized(size: Size)
    | RedrawRequested(surface: SurfaceStatus)
    | CloseRequested
    | Poll(elapsed: nat)
    | OtherEvent

  /** The mouse-look rate, in degrees per unit of motion. `mouse_move` uses
      this literal, not the configured sensitivity. */
  const LookRate: real := 0.1

  /** `mouse_move`: vertical motion turns the pitch the opposite way, horizontal
      motion turns the yaw, the camera is re-aimed (pitch clamped) and the
      frame is marked as moved. */
  function MouseMove(h: Handler, cam: Cameras.Camera, dx: real, dy: real, trig: Trig): (r: (Handler, Cameras.Camera))
    ensures r.0 == h.(flags := h.flags.(cameraHasMoved := true))
    ensures r.1.physical.yaw == cam.physical.yaw + dx * LookRate
    ensures -Cameras.PitchLimit <= r.1.physical.pitch <= Cameras.PitchLimit
    ensures -Cameras.PitchLimit <= cam.physical.pitch - dy * LookRate <= Cameras.PitchLimit ==>
      r.1.physical.pitch == cam.physical.pitch - dy * LookRate
    ensures cam.physical.pitch - dy * LookRate < -Cameras.PitchLimit ==> r.1.physical.pitch == -Cameras.PitchLimit
    ensures cam.physical.pitch - dy * LookRate > Cameras.PitchLimit ==> r.1.physical.pitch == Cameras.PitchLimit
    ensures r.1.physical.pitch == Cameras.ClampPitch(cam.physical.pitch - dy * LookRate)
    ensures r.1.physical.position == cam.physical.position
    ensures Cameras.InSync(r.1)
  {
    var pitch := cam.physical.pitch + dy * -LookRate;
    var yaw := cam.physical.yaw + dx * LookRate;
    (h.(flags := h.flags.(cameraHasMoved := true)), Cameras.SetRotation(cam, pitch, yaw, trig))
  }

  /** A run of mouse motions, oldest first. */
  function MouseMoves(h: Handler, cam: Cameras.Camera, deltas: seq<(real, real)>, trig: Trig): (Handler, Cameras.Camera)
    decreases |deltas|
  {
    if |deltas| == 0 then (h, cam)
    else
      var (h', cam') := MouseMoves(h, cam, deltas[..|deltas| - 1], trig);
      MouseMove(h', cam', deltas[|deltas| - 1].0, deltas[|deltas| - 1].1, trig)
  }

  /** However far the mouse travels, the camera never looks past straight up
      or straight down, and the yaw is the sum of the horizontal motion. */
  lemma {:induction false} LookStaysLevel(h: Handler, cam: Cameras.Camera, deltas: seq<(real, real)>, trig: Trig)
    requires -Cameras.PitchLimit <= cam.physical.pitch <= Cameras.PitchLimit
    ensures var (_, c) := MouseMoves(h, cam, deltas, trig);
      -Cameras.PitchLimit <= c.physical.pitch <= Cameras.PitchLimit
      && c.physical.yaw == cam.physical.yaw + SumX(deltas) * LookRate
    decreases |deltas|
  {
    if |deltas| > 0 {
      LookStaysLevel(h, cam, deltas[..|deltas| - 1], trig);
    }
  }

  function SumX(deltas: seq<(real, real)>): real
    decreases |deltas|
  {
    if |deltas| == 0 then 0.0 else SumX(deltas[..|deltas| - 1]) + deltas[|deltas| - 1].0
  }

  /** `process_input`: one event's effect on the handler and the camera. */
  function ProcessInput(h: Handler, cam: Cameras.Camera, ev: Event, trig: Trig): (r: (Handler, Cameras.Camera))
    ensures ev.KeyboardInput? && !ev.repeat && ev.physicalKey.Some? ==>
      r == (h.(keys := Press(h.keys, ev.state, ev.physicalKey.value)), cam)
    ensures ev.MouseInput? ==> r == (h.(mouse := Press(h.mouse, ev.state, ev.button)), cam)
    ensures ev.MouseWheel? && ev.delta.LineDelta? ==>
      && r.1 == cam
      && r.0 == h.(flags := r.0.flags)
      && r.0.flags == h.flags.(scrolledUp := r.0.flags.scrolledUp, scrolledDown := r.0.flags.scrolledDown)
      && (r.0.flags.scrolledUp <==> h.flags.scrolledUp || ev.delta.y > 0.0)
      && (r.0.flags.scrolledDown <==> h.flags.scrolledDown || ev.delta.y < 0.0)
    ensures ev.MouseMotion? ==> r == MouseMove(h, cam, ev.dx, ev.dy, trig)
    ensures ((ev.KeyboardInput? && (ev.repeat || ev.physicalKey.None?))
      || (ev.MouseWheel? && ev.delta.PixelDelta?)
      || ev.Resized? || ev.RedrawRequested? || ev.CloseRequested? || ev.Poll? || ev.OtherEvent?)
      ==> r == (h, cam)
  {
    match ev
    case KeyboardInput(key, state, repeat) =>
      if !repeat && key.Some? then (h.(keys := Press(h.keys, state, key.value)), cam) else (h, cam)
    case MouseWheel(delta) =>
      if delta.LineDelta? then
        if delta.y > 0.0 then (h.(flags := h.flags.(scrolledUp := true)), cam)
        else if delta.y < 0.0 then (h.(flags := h.flags.(scrolledDown := true)), cam)
        else (h, cam)
      else (h, cam)
    case MouseInput(state, button) => (h.(mouse := Press(h.mouse, state, button)), cam)
    case MouseMotion(dx, dy) => MouseMove(h, cam, dx, dy, trig)
    case _ => (h, cam)
  }

  /** A repeat report of a key already down never changes anything: a held
      key keeps producing its held action, never its press action again. */
  lemma RepeatIsIgnored(h: Handler, cam: Cameras.Camera, key: Key, state: ElementState, trig: Trig)
    ensures ProcessInput(h, cam, KeyboardInput(Some(key), state, true), trig) == (h, cam)
  {
  }

  /** Iteration orders for the three key sets: `get_actions` walks hash sets,
      whose order the model takes as an input. */
  datatype Orders = Orders(pressed: seq<Key>, held: seq<Key>, released: seq<Key>)

  /** `order` lists every member of `s` exactly once. */
  ghost predicate Enumerates(order: seq<Key>, s: set<Key>) {
    && |order| == |s|
    && (forall i, j :: 0 <= i < j < |order| ==> order[i] != order[j])
    && (forall x :: x in s <==> x in order)
  }

  /** Some listing of a key set, one key after another. */
  ghost function Listing(ks: set<Key>): (r: seq<Key>)
    ensures Enumerates(r, ks)
    decreases |ks|
  {
    if ks == {} then []
    else
      var k :| k in ks;
      var rest := Listing(ks - {k});
      assert forall x :: x in ks <==> x == k || x in ks - {k};
      [k] + rest
  }

  /** The iteration order of hash sets of keys: for every set, a listing of
      exactly its keys. The model does not fix which one. */
  type KeyOrder = order: set<Key> -> seq<Key> | forall ks :: Enumerates(order(ks), ks)
    ghost witness (ks: set<Key>) => Listing(ks)

  ghost predicate ListsKeys(o: Orders, keys: EdgeSets<Key>) {
    && Enumerates(o.pressed, keys.justPressed)
    && Enumerates(o.held, keys.held)
    && Enumerates(o.released, keys.justReleased)
  }

  /** The actions bound at `slot` to the keys of `order`, in that order;
      unbound keys contribute nothing. */
  function Emit(order: seq<Key>, b: map<Key, Slots>, slot: Slot): seq<Action>
    decreases |order|
  {
    if |order| == 0 then []
    else (if order[0] in b then [b[order[0]].At(slot)] else []) + Emit(order[1..], b, slot)
  }

  /** The keys of `s` that have a binding. */
  function Bound(s: set<Key>, b: map<Key, Slots>): set<Key> {
    set k | k in s && k in b
  }

  /** The keys of `s` whose binding has action `a` at `slot`. */
  function BoundTo(s: set<Key>, b: map<Key, Slots>, slot: Slot, a: Action): set<Key> {
    set k | k in s && BindsTo(b, k, slot, a)
  }

  /** `k` is bound, and to `a` at `slot`. */
  predicate BindsTo(b: map<Key, Slots>, k: Key, slot: Slot, a: Action) {
    k in b && b[k].At(slot) == a
  }

  /** A group of actions holds one action per bound key of `s`, and each
      action as often as there are keys bound to it. */
  ghost predicate GroupOf(actions: seq<Action>, s: set<Key>, b: map<Key, Slots>, slot: Slot) {
    && |actions| == |Bound(s, b)|
    && forall a :: multiset(actions)[a] == |BoundTo(s, b, slot, a)|
  }

  /** Taking the first key off an enumeration enumerates the rest of the set. */
  lemma EnumeratesTail(order: seq<Key>, s: set<Key>)
    requires Enumerates(order, s) && |order| > 0
    ensures order[0] in s && Enumerates(order[1..], s - {order[0]})
  {
    var k, rest := order[0], order[1..];
    forall x ensures x in s - {k} <==> x in rest {
      if x in rest {
        var j :| 0 <= j < |rest| && rest[j] == x;
        assert order[j + 1] == x;
      }
      if x in s - {k} {
        var j :| 0 <= j < |order| && order[j] == x;
        assert rest[j - 1] == x;
      }
    }
  }

  /** Removing one key `k` from `s` removes at most `k` from the bound keys. */
  lemma BoundWithout(s: set<Key>, k: Key, b: map<Key, Slots>)
    requires k in s
    ensures |Bound(s, b)| == |Bound(s - {k}, b)| + (if k in b then 1 else 0)
  {
    var all, rest := Bound(s, b), Bound(s - {k}, b);
    if k in b {
      assert all == rest + {k} by {
        forall x ensures x in all <==> x in rest + {k} {
        }
      }
      assert k !in rest;
      assert |all| == |rest| + 1;
    } else {
      assert all == rest by {
        forall x ensures x in all <==> x in rest {
        }
      }
    }
  }

  /** Removing one key `k` from `s` removes at most `k` from each binding
      class. */
  lemma BoundToWithout(s: set<Key>, k: Key, b: map<Key, Slots>, slot: Slot, a: Action)
    requires k in s
    ensures |BoundTo(s, b, slot, a)| == |BoundTo(s - {k}, b, slot, a)| + (if BindsTo(b, k, slot, a) then 1 else 0)
  {
    var all, rest := BoundTo(s, b, slot, a), BoundTo(s - {k}, b, slot, a);
    if BindsTo(b, k, slot, a) {
      assert all == rest + {k} by {
        forall x ensures x in all <==> x in rest + {k} {
        }
      }
      assert k !in rest;
      assert |all| == |rest| + 1;
    } else {
      assert all == rest by {
        forall x ensures x in all <==> x in rest {
        }
      }
    }
  }

  /** The actions emitted for an enumeration of `s` form the group of `s`,
      whatever the enumeration. */
  lemma {:induction false} EmitIsGroup(order: seq<Key>, s: set<Key>, b: map<Key, Slots>, slot: Slot)
    requires Enumerates(order, s)
    ensures GroupOf(Emit(order, b, slot), s, b, slot)
    decreases |order|
  {
    if |order| == 0 {
      assert s == {};
      assert Bound(s, b) == {};
      forall a ensures multiset(Emit(order, b, slot))[a] == |BoundTo(s, b, slot, a)| {
        assert BoundTo(s, b, slot, a) == {};
      }
    } else {
      var k := order[0];
      EnumeratesTail(order, s);
      EmitIsGroup(order[1..], s - {k}, b, slot);
      forall a ensures multiset(Emit(order, b, slot))[a] == |BoundTo(s, b, slot, a)| {
        BoundToWithout(s, k, b, slot, a);
      }
      BoundWithout(s, k, b);
    }
  }

  /** `clear_frame_input` followed by `reset_flags`: the per-frame edges and
      scroll flags are dropped; held sets, bindings, the zoom state and the
      moved flag survive. */
  function EndFrame(h: Handler): (r: Handler)
    ensures r.keys.justPressed == {} && r.keys.justReleased == {}
    ensures r.mouse.justPressed == {} && r.mouse.justReleased == {}
    ensures !r.flags.scrolledUp && !r.flags.scrolledDown
    ensures r.keys.held == h.keys.held && r.mouse.held == h.mouse.held
    ensures r.bindings == h.bindings
    ensures r.flags.isZoomed == h.flags.isZoomed && r.flags.cameraHasMoved == h.flags.cameraHasMoved
  {
    h.(keys := h.keys.(justPressed := {}, justReleased := {}),
       mouse := h.mouse.(justPressed := {}, justReleased := {}),
       flags := h.flags.(scrolledUp := false, scrolledDown := false))
  }

  /** The scroll-while-zoomed actions closing `get_actions`: `ZoomIn` for a
      scroll up, then `ZoomOut` for a scroll down, and neither unless zoomed. */
  function ZoomTail(f: Flags): (r: seq<Action>)
    ensures |r| <= 2
    ensures ZoomIn in r <==> f.isZoomed && f.scrolledUp
    ensures ZoomOut in r <==> f.isZoomed && f.scrolledDown
    ensures forall i :: 0 <= i < |r| ==> r[i] in {ZoomIn, ZoomOut}
    ensures multiset(r)[ZoomIn] == (if f.isZoomed && f.scrolledUp then 1 else 0)
    ensures multiset(r)[ZoomOut] == (if f.isZoomed && f.scrolledDown then 1 else 0)
    ensures |r| == 2 ==> r == [ZoomIn, ZoomOut]
  {
    (if f.isZoomed && f.scrolledUp then [ZoomIn] else [])
      + (if f.isZoomed && f.scrolledDown then [ZoomOut] else [])
  }

  /** Slicing a four-part concatenation at the part boundaries recovers the
      parts. */
  lemma FourParts(a: seq<Action>, b: seq<Action>, c: seq<Action>, d: seq<Action>)
    ensures var s := a + b + c + d;
      && s[..|a|] == a && s[|a|..|a| + |b|] == b
      && s[|a| + |b|..|a| + |b| + |c|] == c && s[|a| + |b| + |c|..] == d
  {
    var s := a + b + c + d;
    assert s[..|a|] == a;
    assert s[|a|..|a| + |b|] == b;
    assert s[|a| + |b|..|a| + |b| + |c|] == c;
    assert s[|a| + |b| + |c|..] == d;
  }

  /** Number of bound keys in the three groups of `get_actions`. */
  function PressCount(h: Handler): nat { |Bound(h.keys.justPressed, h.bindings)| }
  function HeldCount(h: Handler): nat { |Bound(h.keys.held, h.bindings)| }
  function ReleaseCount(h: Handler): nat { |Bound(h.keys.justReleased, h.bindings)| }

  /** The shape of one frame's action list: the press group, the held group
      and the release group, each with exactly the bound keys' actions, then
      one `ZoomIn` for a scroll up and one `ZoomOut` for a scroll down while
      zoomed, in that order. */
  ghost predicate FrameActions(acts: seq<Action>, h: Handler) {
    var (n0, n1, n2) := (PressCount(h), HeldCount(h), ReleaseCount(h));
    && n0 + n1 + n2 <= |acts| <= n0 + n1 + n2 + 2
    && GroupOf(acts[..n0], h.keys.justPressed, h.bindings, OnPress)
    && GroupOf(acts[n0..n0 + n1], h.keys.held, h.bindings, WhileHeld)
    && GroupOf(acts[n0 + n1..n0 + n1 + n2], h.keys.justReleased, h.bindings, OnRelease)
    && ZoomActions(acts[n0 + n1 + n2..], h.flags)
  }

  /** The tail of a frame's actions: one `ZoomIn` for a scroll up and one
      `ZoomOut` for a scroll down while zoomed, in that order, and nothing
      else. */
  predicate ZoomActions(t: seq<Action>, f: Flags) {
    && |t| <= 2
    && (ZoomIn in t <==> f.isZoomed && f.scrolledUp)
    && (ZoomOut in t <==> f.isZoomed && f.scrolledDown)
    && (forall i :: 0 <= i < |t| ==> t[i] in {ZoomIn, ZoomOut})
    && multiset(t)[ZoomIn] == (if f.isZoomed && f.scrolledUp then 1 else 0)
    && multiset(t)[ZoomOut] == (if f.isZoomed && f.scrolledDown then 1 else 0)
    && (|t| == 2 ==> t == [ZoomIn, ZoomOut])
  }

  lemma GroupsMakeFrameActions(g0: seq<Action>, g1: seq<Action>, g2: seq<Action>, h: Handler)
    requires GroupOf(g0, h.keys.justPressed, h.bindings, OnPress)
    requires GroupOf(g1, h.keys.held, h.bindings, WhileHeld)
    requires GroupOf(g2, h.keys.justReleased, h.bindings, OnRelease)
    ensures FrameActions(g0 + g1 + g2 + ZoomTail(h.flags), h)
  {
    var t := ZoomTail(h.flags);
    var acts := g0 + g1 + g2 + t;
    FourParts(g0, g1, g2, t);
    var (n0, n1, n2) := (PressCount(h), HeldCount(h), ReleaseCount(h));
    assert n0 == |g0| && n1 == |g1| && n2 == |g2|;
    assert GroupOf(acts[..n0], h.keys.justPressed, h.bindings, OnPress) by {
      assert acts[..n0] == g0;
    }
    assert GroupOf(acts[n0..n0 + n1], h.keys.held, h.bindings, WhileHeld) by {
      assert acts[n0..n0 + n1] == g1;
    }
    assert GroupOf(acts[n0 + n1..n0 + n1 + n2], h.keys.justReleased, h.bindings, OnRelease) by {
      assert acts[n0 + n1..n0 + n1 + n2] == g2;
    }
    assert ZoomActions(acts[n0 + n1 + n2..], h.flags) by {
      assert acts[n0 + n1 + n2..] == t;
    }
  }

  /** `get_actions`: first the press actions of the just-pressed keys, then
      the held actions of the held keys, then the release actions of the
      just-released keys (within each group in the sets' iteration order),
      then `ZoomIn` and `ZoomOut` for a scroll while zoomed; then the frame's
      edges and scroll flags are cleared. */
  function GetActions(h: Handler, o: Orders): (r: (seq<Action>, Handler))
    requires ListsKeys(o, h.keys)
    ensures FrameActions(r.0, h)
    ensures r.1 == EndFrame(h)
  {
    var g0 := Emit(o.pressed, h.bindings, OnPress);
    var g1 := Emit(o.held, h.bindings, WhileHeld);
    var g2 := Emit(o.released, h.bindings, OnRelease);
    EmitIsGroup(o.pressed, h.keys.justPressed, h.bindings, OnPress);
    EmitIsGroup(o.held, h.keys.held, h.bindings, WhileHeld);
    EmitIsGroup(o.released, h.keys.justReleased, h.bindings, OnRelease);
    GroupsMakeFrameActions(g0, g1, g2, h);
    (g0 + g1 + g2 + ZoomTail(h.flags), EndFrame(h))
  }

  /** `_rebind_key`: the key gets the three given actions; every other key
      keeps its binding, or its lack of one. */
  function RebindKey(h: Handler, key: Key, onPress: Action, whileHeld: Action, onRelease: Action): (r: Handler)
    ensures key in r.bindings && r.bindings[key] == Slots(onPress, whileHeld, onRelease)
    ensures forall k :: k != key ==> (k in r.bindings <==> k in h.bindings)
    ensures forall k :: k != key && k in h.bindings ==> r.bindings[k] == h.bindings[k]
    ensures r == h.(bindings := r.bindings)
  {
    h.(bindings := h.bindings[key := Slots(onPress, whileHeld, onRelease)])
  }

  /** A key bound only to act while held. */
  function HeldOnly(a: Action): Slots {
    Slots(NoAction, a, NoAction)
  }

  /** A key bound only to act when pressed. */
  function PressOnly(a: Action): Slots {
    Slots(a, NoAction, NoAction)
  }

  /** The flying speed `ControlLeft` switches to while down and back to when
      up. */
  const BoostSpeed: real := 0.1
  const CruiseSpeed: real := 0.04

  /** `new_defaults`: eleven bindings, no flags, nothing pressed. */
  function NewDefaults(): (r: Handler)
    ensures r.flags == NoFlags && r.keys == NoEdges() && r.mouse == NoEdges()
    ensures r.bindings.Keys == {KeyW, KeyA, KeyS, KeyD, Space, ShiftLeft, Escape, F11, KeyC, KeyT, ControlLeft}
    ensures r.bindings[KeyW] == HeldOnly(MoveForward) && r.bindings[KeyS] == HeldOnly(MoveBack)
    ensures r.bindings[KeyA] == HeldOnly(MoveLeft) && r.bindings[KeyD] == HeldOnly(MoveRight)
    ensures r.bindings[Space] == HeldOnly(MoveUp) && r.bindings[ShiftLeft] == HeldOnly(MoveDown)
    ensures r.bindings[Escape] == PressOnly(ExitProgram) && r.bindings[F11] == PressOnly(Fullscreen)
    ensures r.bindings[KeyT] == PressOnly(Test)
    ensures r.bindings[KeyC] == Slots(Zoom, NoAction, UnZoom)
    ensures r.bindings[ControlLeft] == Slots(SetFlySpeed(BoostSpeed), NoAction, SetFlySpeed(CruiseSpeed))
  {
    var b := map[
      KeyW := HeldOnly(MoveForward),
      KeyA := HeldOnly(MoveLeft),
      KeyS := HeldOnly(MoveBack),
      KeyD := HeldOnly(MoveRight),
      Space := HeldOnly(MoveUp),
      ShiftLeft := HeldOnly(MoveDown),
      Escape := PressOnly(ExitProgram),
      F11 := PressOnly(Fullscreen),
      KeyC := Slots(Zoom, NoAction, UnZoom),
      KeyT := PressOnly(Test),
      ControlLeft := Slots(SetFlySpeed(BoostSpeed), NoAction, SetFlySpeed(CruiseSpeed))];
    Handler(b, NoFlags, NoEdges(), NoEdges())
  }

  /** Under the default bindings a movement action is only ever produced by
      a key being held, and `ExitProgram` only by Escape going down. */
  lemma DefaultMovementIsHeldOnly(k: Key, slot: Slot)
    requires k in NewDefaults().bindings
    ensures NewDefaults().bindings[k].At(slot) in {MoveForward, MoveBack, MoveLeft, MoveRight, MoveUp, MoveDown}
      ==> slot == WhileHeld
    ensures NewDefaults().bindings[k].At(slot) == ExitProgram <==> k == Escape && slot == OnPress
  {
  }
}

=== FILE: mesh.dfy ===
/** The OBJ importer (`parse_obj`) as a pure function of the file's lines.
    Vertex lines give scaled, Y-flipped homogeneous positions; face lines give
    a triangle fan around their first index. Coordinates are parsed by a float
    parser the model takes as a parameter; everything else is modelled. */
module Mesh {
  import opened Common

  /** A triangle as `[u32; 4]`: three vertex indices and an unused fourth slot. */
  datatype Tri = Tri(a: U32, b: U32, c: U32, pad: U32)

  /** What the importer returns: `(Vec<[f32; 4]>, Vec<[u32; 4]>)`. */
  datatype ObjMesh = ObjMesh(vertices: seq<Vec4>, tris: seq<Tri>)

  const EmptyMesh: ObjMesh := ObjMesh([], [])

  /** Appends the output of a later piece of the file. */
  function Concat(m: ObjMesh, n: ObjMesh): ObjMesh {
    ObjMesh(m.vertices + n.vertices, m.tris + n.tris)
  }

  /** The float parser for coordinates (`str::parse::<f32>`), left uninterpreted. */
  type FloatParser = string -> Option<real>

  // ---------------------------------------------------------------------------
  // Tokens

  /** Unicode `White_Space`, the separator set of `split_whitespace`. */
  predicate IsWhitespace(c: char) {
    var n := c as int;
    (9 <= n <= 13) || n == 0x20 || n == 0x85 || n == 0xA0 || n == 0x1680
    || (0x2000 <= n <= 0x200A) || n == 0x2028 || n == 0x2029 || n == 0x202F
    || n == 0x205F || n == 0x3000
  }

  /** A token `split_whitespace` can return: non-empty, without whitespace. */
  predicate IsWord(w: string) {
    |w| > 0 && forall i :: 0 <= i < |w| ==> !IsWhitespace(w[i])
  }

  /** Scans `s`, with `word` the token read so far. */
  function SplitFrom(s: string, word: string): seq<string>
    decreases |s|
  {
    if |s| == 0 then
      (if |word| == 0 then [] else [word])
    else if IsWhitespace(s[0]) then
      (if |word| == 0 then SplitFrom(s[1..], "") else [word] + SplitFrom(s[1..], ""))
    else
      SplitFrom(s[1..], word + [s[0]])
  }

  /** `line.split_whitespace()`. */
  function SplitWhitespace(line: string): seq<string> {
    SplitFrom(line, "")
  }

  /** Joins words with single spaces, the shape of a line an OBJ writer emits. */
  function JoinWords(ws: seq<string>): string
    decreases |ws|
  {
    if |ws| == 0 then ""
    else if |ws| == 1 then ws[0]
    else ws[0] + " " + JoinWords(ws[1..])
  }

  lemma {:induction false} SplitWordPrefix(w: string, rest: string, word: string)
    requires forall i :: 0 <= i < |w| ==> !IsWhitespace(w[i])
    ensures SplitFrom(w + rest, word) == SplitFrom(rest, word + w)
    decreases |w|
  {
    if |w| == 0 {
      assert w + rest == rest;
      assert word + w == word;
    } else {
      assert (w + rest)[0] == w[0];
      assert !IsWhitespace(w[0]);
      assert (w + rest)[1..] == w[1..] + rest;
      assert SplitFrom(w + rest, word) == SplitFrom(w[1..] + rest, word + [w[0]]);
      SplitWordPrefix(w[1..], rest, word + [w[0]]);
      assert word + [w[0]] + w[1..] == word + w;
    }
  }

  /** Splitting undoes joining: a sequence of words written with single spaces
      splits back into exactly those words. */
  lemma {:induction false} SplitJoin(ws: seq<string>)
    requires forall i :: 0 <= i < |ws| ==> IsWord(ws[i])
    ensures SplitWhitespace(JoinWords(ws)) == ws
    decreases |ws|
  {
    if |ws| == 1 {
      assert ws[0] + "" == ws[0];
      SplitWordPrefix(ws[0], "", "");
      assert "" + ws[0] == ws[0];
      assert SplitFrom("", ws[0]) == [ws[0]];
    } else if |ws| > 1 {
      var tail := JoinWords(ws[1..]);
      assert JoinWords(ws) == ws[0] + (" " + tail);
      SplitWordPrefix(ws[0], " " + tail, "");
      assert "" + ws[0] == ws[0];
      assert (" " + tail)[0] == ' ';
      assert (" " + tail)[1..] == tail;
      SplitJoin(ws[1..]);
      assert ws == [ws[0]] + ws[1..];
    }
  }

  // ---------------------------------------------------------------------------
  // Face indices

  /** `s.split('/').next()`: the text before the first slash. */
  function BeforeSlash(s: string): (r: string)
    ensures |r| <= |s| && r == s[..|r|]
    ensures '/' !in r
    ensures |r| < |s| ==> s[|r|] == '/'
    ensures '/' !in s ==> r == s
    decreases |s|
  {
    if |s| == 0 || s[0] == '/' then "" else [s[0]] + BeforeSlash(s[1..])
  }

  predicate IsDigit(c: char) {
    '0' <= c <= '9'
  }

  predicate AllDigits(s: string) {
    forall i :: 0 <= i < |s| ==> IsDigit(s[i])
  }

  /** The value of a string of decimal digits. */
  function DecimalValue(s: string): nat
    requires AllDigits(s)
    decreases |s|
  {
    if |s| == 0 then 0
    else DecimalValue(s[..|s| - 1]) * 10 + (s[|s| - 1] as int - '0' as int)
  }

  /** `str::parse::<u32>`: an optional `+`, then at least one ASCII digit, with
      a value that fits in 32 bits. A `-` is not a digit for an unsigned type. */
  function ParseU32(s: string): Option<U32> {
    var digits := if |s| > 0 && s[0] == '+' then s[1..] else s;
    if |digits| == 0 || !AllDigits(digits) then None
    else if DecimalValue(digits) < U32_LIMIT then Some(DecimalValue(digits))
    else None
  }

  /** One face token: the index before any `/`, parsed, made zero-based. */
  function ParseIndex(token: string): (r: Result<U32>)
    ensures r.Ok? <==> ParseU32(BeforeSlash(token)).Some? && ParseU32(BeforeSlash(token)).value > 0
    ensures r.Ok? ==> r.value + 1 == ParseU32(BeforeSlash(token)).value
    ensures ParseU32(BeforeSlash(token)).None? ==> r == Err(ObjMalformed(BadIndex))
    ensures ParseU32(BeforeSlash(token)) == Some(0) ==> r == Err(ObjMalformed(IndexUnderflow))
  {
    match ParseU32(BeforeSlash(token))
    case None => Err(ObjMalformed(BadIndex))
    case Some(n) => if n == 0 then Err(ObjMalformed(IndexUnderflow)) else Ok(n - 1)
  }

  /** All indices of a face line, in order; the first bad one panics. */
  function ParseIndices(tokens: seq<string>): (r: Result<seq<U32>>)
    ensures r.Ok? <==> forall i :: 0 <= i < |tokens| ==> ParseIndex(tokens[i]).Ok?
    ensures r.Ok? ==> |r.value| == |tokens|
    ensures r.Ok? ==> forall i :: 0 <= i < |tokens| ==> r.value[i] == ParseIndex(tokens[i]).value
    decreases |tokens|
  {
    if |tokens| == 0 then Ok([])
    else
      var first :- ParseIndex(tokens[0]);
      var rest :- ParseIndices(tokens[1..]);
      Ok([first] + rest)
  }

  /** A face line panics with the reason of its first bad token. */
  lemma {:induction false} FirstBadTokenPanics(tokens: seq<string>, i: nat)
    requires i < |tokens| && ParseIndex(tokens[i]).Err?
    requires forall j :: 0 <= j < i ==> ParseIndex(tokens[j]).Ok?
    ensures ParseIndices(tokens) == Err(ParseIndex(tokens[i]).fault)
    decreases i
  {
    if i > 0 {
      var rest := tokens[1..];
      assert ParseIndex(tokens[0]).Ok?;
      assert rest[i - 1] == tokens[i];
      forall j | 0 <= j < i - 1
        ensures ParseIndex(rest[j]).Ok?
      {
        assert rest[j] == tokens[j + 1];
      }
      FirstBadTokenPanics(rest, i - 1);
    }
  }

  /** The triangles `[i0, ik, ik+1, 0]` for `k` from 1 to `|idx| - 2`: a fan
      around the first index. One or two indices give no triangle. */
  function Fan(idx: seq<U32>): (r: seq<Tri>)
    requires |idx| >= 1
    ensures |r| == if |idx| >= 3 then |idx| - 2 else 0
    ensures forall k :: 0 <= k < |r| ==> r[k] == Tri(idx[0], idx[k + 1], idx[k + 2], 0)
    decreases |idx|
  {
    if |idx| < 3 then []
    else Fan(idx[..|idx| - 1]) + [Tri(idx[0], idx[|idx| - 2], idx[|idx| - 1], 0)]
  }

  // ---------------------------------------------------------------------------
  // Lines

  /** `parts[i].parse().unwrap()` for a vertex coordinate. */
  function Coordinate(parts: seq<string>, i: nat, parseFloat: FloatParser): Result<real> {
    if i >= |parts| then Err(ObjMalformed(MissingCoordinate))
    else match parseFloat(parts[i])
      case None => Err(ObjMalformed(BadCoordinate))
      case Some(x) => Ok(x)
  }

  /** The position stored for `v x y z`: scaled by ten, Y flipped, `w` = 1. */
  function ImportVertex(x: real, y: real, z: real): Vec4 {
    Vec4(x * 10.0, -y * 10.0, z * 10.0, 1.0)
  }

  /** What one line contributes. */
  function ParseLine(line: string, parseFloat: FloatParser): (r: Result<ObjMesh>)
    ensures var parts := SplitWhitespace(line);
      (|parts| == 0 || (parts[0] != "v" && parts[0] != "f")) ==> r == Ok(EmptyMesh)
    ensures var parts := SplitWhitespace(line);
      |parts| > 0 && parts[0] == "v" ==>
        && (r.Ok? <==> |parts| >= 4 && parseFloat(parts[1]).Some? && parseFloat(parts[2]).Some?
                                     && parseFloat(parts[3]).Some?)
        && (r.Ok? ==> r.value == ObjMesh([ImportVertex(parseFloat(parts[1]).value,
                                                       parseFloat(parts[2]).value,
                                                       parseFloat(parts[3]).value)], []))
        // the first of the three coordinates that is absent or unparsable names the panic
        && (r == Err(ObjMalformed(BadCoordinate)) <==>
              || (|parts| > 1 && parseFloat(parts[1]).None?)
              || (|parts| > 2 && parseFloat(parts[2]).None?)
              || (|parts| > 3 && parseFloat(parts[3]).None?))
        && (r == Err(ObjMalformed(MissingCoordinate)) <==>
              && |parts| < 4
              && (|parts| > 1 ==> parseFloat(parts[1]).Some?)
              && (|parts| > 2 ==> parseFloat(parts[2]).Some?))
    ensures var parts := SplitWhitespace(line);
      |parts| > 0 && parts[0] == "f" ==>
        && (r.Ok? <==> |parts| > 1 && ParseIndices(parts[1..]).Ok?)
        && (r.Ok? ==> r.value.vertices == [] && r.value.tris == Fan(ParseIndices(parts[1..]).value))
        // a bad token panics with its own reason; a face with no tokens at all is empty
        && (ParseIndices(parts[1..]).Err? ==> r == Err(ParseIndices(parts[1..]).fault))
        && (|parts| == 1 ==> r == Err(ObjMalformed(EmptyFace)))
  {
    var parts := SplitWhitespace(line);
    if |parts| == 0 then Ok(EmptyMesh)
    else if parts[0] == "v" then
      var x :- Coordinate(parts, 1, parseFloat);
      var y :- Coordinate(parts, 2, parseFloat);
      var z :- Coordinate(parts, 3, parseFloat);
      Ok(ObjMesh([ImportVertex(x, y, z)], []))
    else if parts[0] == "f" then
      var idx :- ParseIndices(parts[1..]);
      if |idx| == 0 then Err(ObjMalformed(EmptyFace))
      else Ok(ObjMesh([], Fan(idx)))
    else Ok(EmptyMesh)
  }

  /** Every vertex is homogeneous with `w` = 1; every triangle's spare slot is 0. */
  predicate WellFormed(m: ObjMesh) {
    && (forall i :: 0 <= i < |m.vertices| ==> m.vertices[i].w == 1.0)
    && (forall i :: 0 <= i < |m.tris| ==> m.tris[i].pad == 0)
  }

  /** Sequencing two pieces of the import: the first panic wins, otherwise the
      outputs are appended. */
  function Then(r: Result<ObjMesh>, s: Result<ObjMesh>): Result<ObjMesh> {
    if r.Err? then r else if s.Err? then s else Ok(Concat(r.value, s.value))
  }

  lemma ThenAssociative(p: Result<ObjMesh>, q: Result<ObjMesh>, r: Result<ObjMesh>)
    ensures Then(Then(p, q), r) == Then(p, Then(q, r))
  {
    if p.Ok? && q.Ok? && r.Ok? {
      assert Concat(Concat(p.value, q.value), r.value) == Concat(p.value, Concat(q.value, r.value));
    }
  }

  /** `parse_obj` over the file's lines: each line's contribution appended in
      file order; the first malformed line panics. */
  function ParseObj(lines: seq<string>, parseFloat: FloatParser): (r: Result<ObjMesh>)
    ensures r.Ok? ==> WellFormed(r.value)
    decreases |lines|
  {
    if |lines| == 0 then Ok(EmptyMesh)
    else Then(ParseObj(lines[..|lines| - 1], parseFloat), ParseLine(lines[|lines| - 1], parseFloat))
  }

  /** Importing two pieces of a file one after the other is importing the whole. */
  lemma {:induction false} ParseObjAppend(a: seq<string>, b: seq<string>, parseFloat: FloatParser)
    ensures ParseObj(a + b, parseFloat) == Then(ParseObj(a, parseFloat), ParseObj(b, parseFloat))
    decreases |b|
  {
    if |b| == 0 {
      assert a + b == a;
      var r := ParseObj(a, parseFloat);
      if r.Ok? {
        assert Concat(r.value, EmptyMesh) == r.value;
      }
    } else {
      var b' := b[..|b| - 1];
      var last := b[|b| - 1];
      assert (a + b)[..|a + b| - 1] == a + b';
      assert (a + b)[|a + b| - 1] == last;
      ParseObjAppend(a, b', parseFloat);
      ThenAssociative(ParseObj(a, parseFloat), ParseObj(b', parseFloat), ParseLine(last, parseFloat));
    }
  }

  /** The import succeeds exactly when every line does. */
  lemma {:induction false} ParseObjOkIffEveryLine(lines: seq<string>, parseFloat: FloatParser)
    ensures ParseObj(lines, parseFloat).Ok? <==> forall i :: 0 <= i < |lines| ==> ParseLine(lines[i], parseFloat).Ok?
    decreases |lines|
  {
    if |lines| > 0 {
      var init, last := lines[..|lines| - 1], lines[|lines| - 1];
      ParseObjOkIffEveryLine(init, parseFloat);
      var r, s := ParseObj(init, parseFloat), ParseLine(last, parseFloat);
      assert ParseObj(lines, parseFloat) == Then(r, s);
      assert Then(r, s).Ok? <==> r.Ok? && s.Ok?;
      EverySnoc(lines, init, line => ParseLine(line, parseFloat).Ok?);
    }
  }

  /** A property holds of every line exactly when it holds of every line but
      the last, and of the last. */
  lemma EverySnoc(lines: seq<string>, init: seq<string>, p: string -> bool)
    requires |lines| > 0 && init == lines[..|lines| - 1]
    ensures (forall i :: 0 <= i < |lines| ==> p(lines[i])) <==>
      (forall i :: 0 <= i < |init| ==> p(init[i])) && p(lines[|lines| - 1])
  {
    assert forall i :: 0 <= i < |init| ==> init[i] == lines[i];
  }

  /** A line whose first token is `v`. */
  predicate IsVertexLine(line: string) {
    var parts := SplitWhitespace(line);
    |parts| > 0 && parts[0] == "v"
  }

  function CountVertexLines(lines: seq<string>): nat
    decreases |lines|
  {
    if |lines| == 0 then 0
    else CountVertexLines(lines[..|lines| - 1]) + (if IsVertexLine(lines[|lines| - 1]) then 1 else 0)
  }

  /** One vertex per `v` line and none from any other line. */
  lemma {:induction false} VertexPerVertexLine(lines: seq<string>, parseFloat: FloatParser)
    requires ParseObj(lines, parseFloat).Ok?
    ensures |ParseObj(lines, parseFloat).value.vertices| == CountVertexLines(lines)
    decreases |lines|
  {
    if |lines| > 0 {
      var init := lines[..|lines| - 1];
      VertexPerVertexLine(init, parseFloat);
      var parts := SplitWhitespace(lines[|lines| - 1]);
      if |parts| > 0 && parts[0] == "f" {
        assert "f" != "v";
      }
    }
  }

  // ---------------------------------------------------------------------------
  // Writing lines back

  /** The decimal text of `n`, without leading zeros. */
  function DecimalText(n: nat): (s: string)
    ensures |s| > 0 && AllDigits(s)
    decreases n
  {
    if n < 10 then [('0' as int + n) as char]
    else DecimalText(n / 10) + [('0' as int + n % 10) as char]
  }

  lemma {:induction false} DecimalRoundTrip(n: nat)
    ensures DecimalValue(DecimalText(n)) == n
    decreases n
  {
    var s := DecimalText(n);
    if n >= 10 {
      DecimalRoundTrip(n / 10);
      assert s[..|s| - 1] == DecimalText(n / 10);
    }
  }

  /** The u32 parser reads back what `DecimalText` writes. */
  lemma ParseU32Decimal(n: nat)
    requires n < U32_LIMIT
    ensures ParseU32(DecimalText(n)) == Some(n)
  {
    DecimalRoundTrip(n);
    var s := DecimalText(n);
    assert IsDigit(s[0]);
  }

  lemma DecimalTextIsWord(n: nat)
    ensures IsWord(DecimalText(n)) && '/' !in DecimalText(n)
  {
    var s := DecimalText(n);
    forall i | 0 <= i < |s| ensures !IsWhitespace(s[i]) && s[i] != '/' {
      assert IsDigit(s[i]);
    }
  }

  /** The one-based index tokens of a face. */
  function FaceTokens(idx: seq<U32>): (ts: seq<string>)
    ensures |ts| == |idx|
  {
    seq(|idx|, i requires 0 <= i < |idx| => DecimalText(idx[i] as nat + 1))
  }

  /** `f i0+1 i1+1 ...`: the face line an OBJ writer emits for zero-based indices. */
  function FaceLine(idx: seq<U32>): string {
    JoinWords(["f"] + FaceTokens(idx))
  }

  /** The tokens a face line splits into. */
  lemma FaceLineTokens(idx: seq<U32>)
    ensures SplitWhitespace(FaceLine(idx)) == ["f"] + FaceTokens(idx)
  {
    var ws := ["f"] + FaceTokens(idx);
    forall i | 0 <= i < |ws| ensures IsWord(ws[i]) {
      if i > 0 {
        DecimalTextIsWord(idx[i - 1] as nat + 1);
      }
    }
    SplitJoin(ws);
  }

  /** A written one-based index token reads back as the zero-based index. */
  lemma IndexTokenParses(n: U32)
    requires n + 1 < U32_LIMIT
    ensures ParseIndex(DecimalText(n as nat + 1)) == Ok(n)
  {
    var k: nat := n as nat + 1;
    DecimalTextIsWord(k);
    ParseU32Decimal(k);
    assert BeforeSlash(DecimalText(k)) == DecimalText(k);
  }

  /** Tokens that each read back as one index read back together as all of them. */
  lemma IndicesParse(ts: seq<string>, idx: seq<U32>)
    requires |ts| == |idx|
    requires forall i :: 0 <= i < |ts| ==> ParseIndex(ts[i]) == Ok(idx[i])
    ensures ParseIndices(ts) == Ok(idx)
  {
    var r := ParseIndices(ts);
    assert r.Ok?;
    assert forall i :: 0 <= i < |idx| ==> r.value[i] == idx[i];
    assert r.value == idx;
  }

  /** The written index tokens of a face read back as its indices. */
  lemma FaceTokensParse(idx: seq<U32>)
    requires forall i :: 0 <= i < |idx| ==> idx[i] + 1 < U32_LIMIT
    ensures ParseIndices(FaceTokens(idx)) == Ok(idx)
  {
    var ts := FaceTokens(idx);
    forall i | 0 <= i < |ts| ensures ParseIndex(ts[i]) == Ok(idx[i]) {
      assert ts[i] == DecimalText(idx[i] as nat + 1);
      IndexTokenParses(idx[i]);
    }
    IndicesParse(ts, idx);
  }

  /** Writing a face and importing it again yields its fan triangulation. */
  lemma FaceLineRoundTrip(idx: seq<U32>, parseFloat: FloatParser)
    requires |idx| >= 1
    requires forall i :: 0 <= i < |idx| ==> idx[i] + 1 < U32_LIMIT
    ensures ParseLine(FaceLine(idx), parseFloat) == Ok(ObjMesh([], Fan(idx)))
  {
    var ws := ["f"] + FaceTokens(idx);
    FaceLineTokens(idx);
    assert ws[0] == "f" && ws[1..] == FaceTokens(idx);
    FaceTokensParse(idx);
    var r := ParseLine(FaceLine(idx), parseFloat);
    assert r.Ok?;
    assert r.value.vertices == [] && r.value.tris == Fan(idx);
  }

  /** `v x y z` written from coordinate tokens imports as one scaled, flipped vertex. */
  lemma VertexLineRoundTrip(xs: string, ys: string, zs: string, x: real, y: real, z: real, parseFloat: FloatParser)
    requires IsWord(xs) && IsWord(ys) && IsWord(zs)
    requires parseFloat(xs) == Some(x) && parseFloat(ys) == Some(y) && parseFloat(zs) == Some(z)
    ensures ParseLine(JoinWords(["v", xs, ys, zs]), parseFloat) == Ok(ObjMesh([ImportVertex(x, y, z)], []))
  {
    var ws := ["v", xs, ys, zs];
    assert IsWord(ws[0]);
    SplitJoin(ws);
  }
}

=== FILE: scene.dfy ===
/** The scene store (`Material`, `Scene`): material and geometry lists and the
    GPU buffers that mirror them. A mirror is a snapshot taken when its buffer
    is created; it follows the lists only when an update call rebuilds it. */
module Scenes {
  import opened Common
  import Gpu
  import Mesh

  /** `Material`: three `vec4` values packing albedo, material kind, emission,
      roughness and index of refraction for the shader. */
  datatype Material = Material(albedoAndMat: Vec4, emissionAndRoughness: Vec4, ior: Vec4)

  /** `Material::default()`: all zero. */
  const DefaultMaterial: Material := Material(Zero4, Zero4, Zero4)

  function Albedo(m: Material): Vec3 {
    Vec3(m.albedoAndMat.x, m.albedoAndMat.y, m.albedoAndMat.z)
  }

  function Kind(m: Material): real {
    m.albedoAndMat.w
  }

  function Emission(m: Material): Vec3 {
    Vec3(m.emissionAndRoughness.x, m.emissionAndRoughness.y, m.emissionAndRoughness.z)
  }

  function Roughness(m: Material): real {
    m.emissionAndRoughness.w
  }

  function Ior(m: Material): real {
    m.ior.x
  }

  /** The padding of the last `vec4` is zero. */
  predicate Packed(m: Material) {
    m.ior.y == 0.0 && m.ior.z == 0.0 && m.ior.w == 0.0
  }

  /** `Material::new`: every field can be read back from the packed layout. */
  function NewMaterial(albedo: Vec3, emission: Vec3, material: real, roughness: real, ior: real): (m: Material)
    ensures Albedo(m) == albedo && Emission(m) == emission
    ensures Kind(m) == material && Roughness(m) == roughness && Ior(m) == ior
    ensures Packed(m)
  {
    Material(
      Vec4(albedo.x, albedo.y, albedo.z, material),
      Vec4(emission.x, emission.y, emission.z, roughness),
      Vec4(ior, 0.0, 0.0, 0.0))
  }

  /** The other direction of the packing round trip: a packed material is
      rebuilt from its fields. */
  lemma MaterialRepacks(m: Material)
    requires Packed(m)
    ensures NewMaterial(Albedo(m), Emission(m), Kind(m), Roughness(m), Ior(m)) == m
  {
  }

  datatype Scene = Scene(
    materials: seq<Material>,
    vertices: seq<Vec4>,
    tris: seq<Mesh.Tri>,
    materialBuffer: Gpu.Buffer<Material>,
    vertexBuffer: Gpu.Buffer<Vec4>,
    triBuffer: Gpu.Buffer<Mesh.Tri>)

  /** Every mirror holds exactly the current list. */
  predicate InSync(s: Scene) {
    && s.materialBuffer.contents == s.materials
    && s.vertexBuffer.contents == s.vertices
    && s.triBuffer.contents == s.tris
  }

  /** The three buffer handles, in declaration order. */
  function BufferIds(s: Scene): seq<Gpu.Handle> {
    [s.materialBuffer.id, s.vertexBuffer.id, s.triBuffer.id]
  }

  /** `Scene::new`: one default material, one zero vertex, one zero triangle,
      each mirrored in a freshly created buffer. */
  function New(d: Gpu.Device): (r: (Scene, Gpu.Device))
    ensures r.0.materials == [DefaultMaterial]
    ensures r.0.vertices == [Zero4] && r.0.tris == [Mesh.Tri(0, 0, 0, 0)]
    ensures InSync(r.0)
    ensures forall i :: 0 <= i < 3 ==> d.next <= BufferIds(r.0)[i] < r.1.next
    ensures forall i, j :: 0 <= i < j < 3 ==> BufferIds(r.0)[i] != BufferIds(r.0)[j]
  {
    var materials := [DefaultMaterial];
    var vertices := [Zero4];
    var tris := [Mesh.Tri(0, 0, 0, 0)];
    var (mb, d1) := Gpu.CreateBuffer(d, materials);
    var (vb, d2) := Gpu.CreateBuffer(d1, vertices);
    var (tb, d3) := Gpu.CreateBuffer(d2, tris);
    (Scene(materials, vertices, tris, mb, vb, tb), d3)
  }

  /** `update_material_buffer`: a fresh buffer holding the current materials;
      nothing else changes. */
  function UpdateMaterialBuffer(s: Scene, d: Gpu.Device): (r: (Scene, Gpu.Device))
    ensures r.0.materialBuffer.contents == s.materials
    ensures Gpu.FreshFor(r.0.materialBuffer.id, d) && r.0.materialBuffer.id < r.1.next
    ensures r.0 == s.(materialBuffer := r.0.materialBuffer)
  {
    var (mb, d') := Gpu.CreateBuffer(d, s.materials);
    (s.(materialBuffer := mb), d')
  }

  /** `update_triangle_buffers`: fresh vertex and triangle buffers holding the
      current lists; nothing else changes. */
  function UpdateTriangleBuffers(s: Scene, d: Gpu.Device): (r: (Scene, Gpu.Device))
    ensures r.0.vertexBuffer.contents == s.vertices && r.0.triBuffer.contents == s.tris
    ensures Gpu.FreshFor(r.0.vertexBuffer.id, d) && Gpu.FreshFor(r.0.triBuffer.id, d)
    ensures r.0.vertexBuffer.id != r.0.triBuffer.id
    ensures r.0.vertexBuffer.id < r.1.next && r.0.triBuffer.id < r.1.next
    ensures r.0 == s.(vertexBuffer := r.0.vertexBuffer, triBuffer := r.0.triBuffer)
  {
    var (vb, d1) := Gpu.CreateBuffer(d, s.vertices);
    var (tb, d2) := Gpu.CreateBuffer(d1, s.tris);
    (s.(vertexBuffer := vb, triBuffer := tb), d2)
  }

  /** The material `setup_test_scene` installs: the random albedo it is given,
      no emission, material kind 2, roughness 0.5, index of refraction 1.5. */
  function TestMaterial(albedo: Vec3): Material {
    NewMaterial(albedo, Zero3, 2.0, 0.5, 1.5)
  }

  /** `setup_test_scene`: the lists are replaced wholesale by one test material
      and the imported mesh, and all three mirrors are rebuilt. The random
      albedo and the mesh file's lines are inputs. */
  function SetupTestScene(s: Scene, d: Gpu.Device, albedo: Vec3, objLines: seq<string>, parseFloat: Mesh.FloatParser)
    : (r: Result<(Scene, Gpu.Device)>)
    ensures r.Ok? <==> Mesh.ParseObj(objLines, parseFloat).Ok?
    ensures r.Ok? ==> var sc := r.value.0;
      && sc.materials == [TestMaterial(albedo)]
      && |sc.materials| == 1
      && Albedo(sc.materials[0]) == albedo && Emission(sc.materials[0]) == Zero3
      && Kind(sc.materials[0]) == 2.0 && Roughness(sc.materials[0]) == 0.5 && Ior(sc.materials[0]) == 1.5
      && sc.vertices == Mesh.ParseObj(objLines, parseFloat).value.vertices
      && sc.tris == Mesh.ParseObj(objLines, parseFloat).value.tris
      && InSync(sc)
      && (forall i :: 0 <= i < 3 ==> Gpu.FreshFor(BufferIds(sc)[i], d) && BufferIds(sc)[i] < r.value.1.next)
  {
    var mesh :- Mesh.ParseObj(objLines, parseFloat);
    var s1 := s.(materials := [TestMaterial(albedo)], vertices := mesh.vertices, tris := mesh.tris);
    var (s2, d1) := UpdateMaterialBuffer(s1, d);
    var (s3, d2) := UpdateTriangleBuffers(s2, d1);
    Ok((s3, d2))
  }
}

=== FILE: texture.dfy ===
/** The resolution-dependent resources (`Textures`): the two accumulation
    buffers and the view of the compute output texture. */
module TextureSet {
  import opened Common
  import Gpu

  /** A view of a freshly created 2D texture with the given extent. */
  datatype TextureView = TextureView(id: Gpu.Handle, texture: Gpu.Handle, width: U32, height: U32, depth: nat)

  datatype Textures = Textures(bufferA: Gpu.Buffer<Vec4>, bufferB: Gpu.Buffer<Vec4>, view: TextureView)

  /** The three handles the bind groups use. */
  function Ids(t: Textures): seq<Gpu.Handle> {
    [t.bufferA.id, t.bufferB.id, t.view.id]
  }

  /** The resources match `size`: a `width x height x 1` texture and two
      buffers of one zero `vec4` per pixel, equal to each other. */
  predicate Sized(t: Textures, size: Size) {
    && t.view.width == size.width && t.view.height == size.height && t.view.depth == 1
    && |t.bufferA.contents| == size.width * size.height
    && (forall i :: 0 <= i < |t.bufferA.contents| ==> t.bufferA.contents[i] == Zero4)
    && t.bufferB.contents == t.bufferA.contents
  }

  /** Every handle of `t` was handed out between `d` and `d'`, and they differ. */
  predicate FreshBetween(t: Textures, d: Gpu.Device, d': Gpu.Device) {
    && (forall i :: 0 <= i < 3 ==> d.next <= Ids(t)[i] < d'.next)
    && (forall i, j :: 0 <= i < j < 3 ==> Ids(t)[i] != Ids(t)[j])
  }

  /** `Textures::new`. The pixel count `width * height` is a `u32` product,
      so a size whose product leaves the range panics. */
  function New(d: Gpu.Device, size: Size): (r: Result<(Textures, Gpu.Device)>)
    ensures r.Ok? <==> size.width * size.height < U32_LIMIT
    ensures r.Ok? ==> Sized(r.value.0, size) && FreshBetween(r.value.0, d, r.value.1)
  {
    var pixels :- MulU32(size.width, size.height);
    var blank := seq(pixels, _ => Zero4);
    var (texture, d1) := Gpu.Allocate(d);
    var (a, d2) := Gpu.CreateBuffer(d1, blank);
    var (b, d3) := Gpu.CreateBuffer(d2, blank);
    var (view, d4) := Gpu.Allocate(d3);
    Ok((Textures(a, b, TextureView(view, texture, size.width, size.height, 1)), d4))
  }
}

=== FILE: timing.dfy ===
/** The fixed-timestep scheduler (`State::get_ticks`). Durations are whole
    nanoseconds; the elapsed wall-clock time since the previous call is an input. */
module Timing {
  import opened Common

  /** The longest frame the scheduler will catch up on: 250 ms. */
  const MaxFrameNanos: nat := 250_000_000

  /** `frame_length.min(Duration::from_millis(250))`. */
  function ClampFrame(elapsed: nat): (r: nat)
    ensures r <= MaxFrameNanos && r <= elapsed
    ensures r == elapsed || r == MaxFrameNanos
  {
    if elapsed < MaxFrameNanos then elapsed else MaxFrameNanos
  }

  /** The scheduler's invariant: a positive timestep and an accumulator that
      holds less than one timestep (it starts at `Duration::ZERO`). */
  predicate Settled(accum: nat, timestep: nat) {
    0 < timestep && accum < timestep
  }

  /** The outcome of one `get_ticks` call. */
  datatype Advance = Advance(ticks: U32, accum: nat)

  /** `get_ticks` as a single step: whole timesteps drained from the clamped,
      accumulated time, and what is left over. */
  function AdvanceClock(accum: nat, timestep: nat, elapsed: nat): (r: Advance)
    requires Settled(accum, timestep)
    ensures r.ticks * timestep + r.accum == accum + ClampFrame(elapsed)
    ensures Settled(r.accum, timestep)
  {
    TicksFitU32(accum, timestep, elapsed);
    var total := accum + ClampFrame(elapsed);
    Advance(total / timestep, total % timestep)
  }

  /** One step of the clock is floor division of the banked time by the
      timestep. */
  lemma AdvanceIsDivision(accum: nat, timestep: nat, elapsed: nat)
    requires Settled(accum, timestep)
    ensures AdvanceClock(accum, timestep, elapsed).ticks == (accum + ClampFrame(elapsed)) / timestep
    ensures AdvanceClock(accum, timestep, elapsed).accum == (accum + ClampFrame(elapsed)) % timestep
  {
    var r := AdvanceClock(accum, timestep, elapsed);
    FloorDivUnique(accum + ClampFrame(elapsed), timestep, r.ticks, r.accum);
  }

  /** With less than one timestep left over, one call produces at most
      `1 + 250 ms / timestep` ticks, so the `u32` tick counter cannot wrap. */
  lemma TicksFitU32(accum: nat, timestep: nat, elapsed: nat)
    requires Settled(accum, timestep)
    ensures (accum + ClampFrame(elapsed)) / timestep < U32_LIMIT
  {
    var total := accum + ClampFrame(elapsed);
    assert total < timestep + MaxFrameNanos;
    DivBound(total, timestep, MaxFrameNanos);
  }

  lemma DivBound(total: nat, d: nat, extra: nat)
    requires 0 < d && total < d + extra
    ensures total / d <= extra
  {
    var q := total / d;
    assert q * d <= total;
    if q > extra {
      MulMonotone(extra + 1, q, d);
      MulMonotone(1, d, extra);
      assert false;
    }
  }

  lemma MulMonotone(a: nat, b: nat, d: nat)
    requires a <= b
    ensures a * d <= b * d
  {
    var k: nat := b - a;
    assert b * d == a * d + k * d;
  }

  /** `get_ticks` as the source writes it: the clamped time is added to the
      accumulator, then whole timesteps are subtracted one at a time. The loop
      computes floor division with remainder. */
  method GetTicks(accum: nat, timestep: nat, elapsed: nat) returns (ticks: nat, accum': nat)
    requires Settled(accum, timestep)
    ensures ticks == (accum + ClampFrame(elapsed)) / timestep
    ensures accum' == (accum + ClampFrame(elapsed)) % timestep
    ensures ticks < U32_LIMIT
  {
    TicksFitU32(accum, timestep, elapsed);
    ticks := 0;
    accum' := accum + ClampFrame(elapsed);
    while accum' >= timestep
      invariant ticks * timestep + accum' == accum + ClampFrame(elapsed)
      decreases accum'
    {
      ticks := ticks + 1;
      accum' := accum' - timestep;
    }
    FloorDivUnique(accum + ClampFrame(elapsed), timestep, ticks, accum');
  }

  /** Quotient and remainder are determined by `q * d + r == n` and `r < d`. */
  lemma FloorDivUnique(n: nat, d: nat, q: nat, r: nat)
    requires 0 < d && q * d + r == n && r < d
    ensures q == n / d && r == n % d
  {
    var q', r' := n / d, n % d;
    assert q' * d + r' == n;
    if q < q' {
      MulMonotone(q + 1, q', d);
      assert false;
    } else if q > q' {
      MulMonotone(q' + 1, q, d);
      assert false;
    }
  }

  /** The clamp is the only thing standing between a long stall and a long
      catch-up: however long the stall, one call yields at most as many ticks
      as fit in 250 ms plus the carried remainder. */
  lemma StallIsBounded(accum: nat, timestep: nat, elapsed: nat)
    requires Settled(accum, timestep) && elapsed >= MaxFrameNanos
    ensures AdvanceClock(accum, timestep, elapsed) == AdvanceClock(accum, timestep, MaxFrameNanos)
  {
  }
}
